=== FILE: README.md ===
# Bank-statement converter core, modelled in Dafny

The service converts the PDF statement of a French bank into an Excel
workbook of transactions (date, label, amount). This project models its
core decision logic and proves properties of it:

- **Text of the PDF** (`ScanDetection`): the rule that decides whether a PDF
  is a scan (too little text, too few words, fewer than two banking words),
  and the way the smart extraction follows that decision.
- **Extraction** (`Extraction`, `Mistral`, `Parsers`, `LclParser`): the minimum
  text length, the attempt with the Mistral language model (prompt truncated
  to 8000 characters, reply cleaned, JSON array cut out, every record
  validated and its date normalised to DD/MM/YYYY), and the regex fallback.
  The fallback detects the bank and runs the Crédit Agricole, Banque
  Populaire or LCL line parser. The LCL parser has two scanning passes and a
  loop that may consume the following line.
- **HTTP backend** (`Backend`):
  - parsing the Authorization header;
  - the monthly quota per plan and the usage counter, which only a
    successful conversion increments;
  - what becomes of a statement the validator rejects: whether it is
    recorded, notified and reportable;
  - the one-free-trial-per-IP rule for guests;
  - the name of the workbook;
  - the truncation of stored and posted texts;
  - the keyword scan of the diagnostic endpoint.

The database tables are fields of a `Store` class, and its `Valid()`
invariant ties every monthly counter to the uploads stored for that month.
Some steps cannot be computed here: reading the PDF, OCR, the language model
call, JSON decoding, the statement validator, Excel generation and the
clock. They appear as parameters of the operations that use them.

All line-oriented parsers are specified by a function over the whole list of
lines (`FilterMap` of a per-line function, or `RunSteps` of per-turn steps
for LCL). The loops of the source are methods proved equal to those
functions.

## Model

| member | source | states |
|---|---|---|
| Parsers.DetectBankFormat | parsers.py:85-100 | A text naming Crédit Agricole is CA. The answer is UNKNOWN exactly when none of the bank keywords occurs in the upper-cased text. |
| Parsers.DetectIsFirstMatch | parsers.py:85-100 | Detection is the first entry of the ordered keyword table (CA, BP, LCL, SG, BNP) one of whose keywords occurs. |
| Parsers.BankKeywordCases | parsers.py:89-99 | Some bank keyword occurs exactly when one of the seven listed spellings occurs. |
| Parsers.CaLine | parsers.py:112-141 | A line holding a skip keyword gives nothing. A record it gives has a J/MM/2025 or JJ/MM/2025 date, a non-empty stripped label and a whole amount in (-100000, 0]. |
| Parsers.CaAmountIsUnits | parsers.py:117-134 | A record's amount is minus the integer part of the line's first amount match, which has at most five digits. The cents are dropped. |
| Parsers.CaLineFields | parsers.py:112-139 | A line gives a record exactly when it holds no skip keyword, a date and an amount, and the stripped text between the first date match and the first amount match is non-empty. The record's date is the matched day and month followed by "/2025", its label is that stripped text, and its amount comes from the first amount match. |
| Parsers.ExtractCaTransactions | parsers.py:107-143 | The loop returns exactly the per-line records of the lines, in order. |
| Parsers.CaRecordsWellFormed | parsers.py:107-143 | Every record the Crédit Agricole parser returns is well formed. |
| Parsers.CaSkipLineIgnored | parsers.py:113-114 | A line with a skip keyword can be removed without changing the result. |
| Parsers.BpDate | parsers.py:155 | The date match at the start of the stripped line succeeds exactly when the line begins with at least five digits. It splits those digits into day, month and two-digit year. |
| Parsers.BpLine | parsers.py:151-177 | Skip lines and lines not starting with five digits give nothing. A record has a J/MM/20YY or JJ/MM/20YY date, a stripped label and a whole non-positive amount. |
| Parsers.BpAmountIsUnits | parsers.py:156-174 | A record's amount is minus the integer part of the first amount match on the stripped line. |
| Parsers.BpLineFields | parsers.py:151-177 | A line gives a record exactly when it holds no skip keyword and its stripped form starts with a date and holds an amount. The record's date is day/month/20YY from that date match. Its label is the stripped text between the date and the first amount match, and its amount comes from that match. |
| Parsers.ExtractBpTransactions | parsers.py:146-179 | The loop returns exactly the per-line records of the lines, in order. |
| Parsers.BpRecordsWellFormed | parsers.py:146-179 | Every record the Banque Populaire parser returns is well formed. |
| Parsers.BpSkipLineIgnored | parsers.py:152-153 | A line with a skip keyword can be removed without changing the result. |
| LclParser.ScanHeader | parsers.py:203-220 | Pass 1 yields the year and month of the first header matched within the first 30 lines, or year 2025 without a month. |
| LclParser.HeaderFrom | parsers.py:207-216 | A header found comes from one of the first 30 lines and has a four-digit year. |
| LclParser.FindSection | parsers.py:225-239 | Pass 2 computes the section function over the lines. |
| LclParser.SectionOfLines | parsers.py:225-239 | There is no section exactly when no line holds the header keyword. Otherwise the section starts after a header line and has no header inside. It ends at the first "TOTAUX" line at or after the first header, or at the end. Neither its lines nor its stopping line hold the header, so its header is the last one at or before the stop. |
| LclParser.NoHeaderNoTransactions | parsers.py:237-239 | Without a header line the LCL parser returns no transactions. |
| LclParser.ReadTurn | parsers.py:257-346 | One turn of the parse loop equals the step function: the record it yields and the index it moves to. |
| LclParser.LclStep | parsers.py:257-346 | A turn advances one or two lines, and a record has a 10-character date in the period's year, a stripped label of at least 3 characters and a non-positive amount. A two-line turn yields a record whose label is the current line and whose amount is the debit of the amount that starts the next line. |
| LclParser.LclStepFields | parsers.py:256-335 | A turn yields a record exactly when the stripped line is non-blank, holds no skip keyword and holds a date, and then either it has a trailing amount with at least 3 characters of stripped text before that amount, or it has none, the next line starts with an amount and the line has at least 3 characters. The date comes from the first date match. With a trailing amount, the label is the stripped text before it and the amount is its debit, and the turn advances one line. Otherwise the label is the whole line, the amount is the debit of the next line's amount, and the turn advances two lines. |
| LclParser.ConsumedLineSkipped | parsers.py:316-335 | When a turn consumes the next line, that line is never read as a line of its own. |
| LclParser.TransactionYear | parsers.py:276-287 | The December/January rollover never changes the year. The year is always the header's year. |
| LclParser.ParseSection | parsers.py:254-352 | The while loop returns the records of the steps, in order. |
| LclParser.ParseLines | parsers.py:254-352 | The parse yields at most one record per line, each well formed for the period. |
| LclParser.ExtractLclTransactions | parsers.py:182-354 | The method returns exactly the function's result: header, then section, then parse. |
| LclParser.LclTransactions | parsers.py:182-354 | Every LCL record is well formed for the period of the header found. |
| LclParser.LclYear | parsers.py:216-220 | Every record's year is the header's year when a header was found, and 2025 otherwise. |
| Transactions.FilterMapAppend | parsers.py:112-141 | Filtering line by line distributes over concatenation. |
| Transactions.FilterMapOrigin | parsers.py:112-141 | Every record kept comes from some input line. |
| Transactions.RunStepsOrigin | parsers.py:257-346 | Every record of a run of steps comes from one of the steps. |
| Mistral.NormalizeDate | mistral_parser.py:204-241 | A result is a real calendar day in DD/MM/YYYY. The stripped input was of the form DD/MM/YYYY, DDMMYYYY or DD-MM-YYYY. For each of the three shapes, NormalDateKept, InvalidDayRejected, NormalizeEightDigits and NormalizeDashes pin the result to the rewritten date or to None. |
| Mistral.NormalizeStripsFirst | mistral_parser.py:214 | Surrounding whitespace never changes the result: a date and its stripped form normalise alike. |
| Mistral.NormalizeIdempotent | mistral_parser.py:204-241 | Normalising a normalised date returns it unchanged. |
| Mistral.NormalDateKept | mistral_parser.py:217-219 | A valid DD/MM/YYYY date is returned as is. |
| Mistral.NormalizeEightDigits | mistral_parser.py:222-228 | DDMMYYYY becomes DD/MM/YYYY exactly when that names a real day; otherwise the result is None. |
| Mistral.NormalizeDashes | mistral_parser.py:231-234 | DD-MM-YYYY becomes DD/MM/YYYY exactly when that names a real day; otherwise the result is None. |
| Mistral.InvalidDayRejected | mistral_parser.py:217-241 | A DD/MM/YYYY string that names no real day (31/02/2024) is rejected. |
| Mistral.ParseFloat | mistral_parser.py:154 | float() of a string succeeds exactly when its stripped text is a decimal literal. |
| Mistral.ParseFloatOfInt | mistral_parser.py:154 | float(str(i)) is i for every integer. |
| Mistral.FloatOf | mistral_parser.py:154 | An integer converts to itself. null, arrays and objects are rejected. |
| Mistral.ValidateItem | mistral_parser.py:133-177 | An item is kept exactly when it is an object with the three keys, a normalisable date, a convertible amount and a string label. The record holds the normalised date, the stripped label and the amount. |
| Mistral.ValidateRecords | mistral_parser.py:130-177 | The loop keeps the valid items in order, and kept plus rejected equals the input count. |
| Mistral.ValidatedRecords | mistral_parser.py:130-190 | Every validated record has a DD/MM/YYYY date and a stripped label. |
| Mistral.PromptText | mistral_parser.py:53 | The prompt holds the whole text up to 8000 characters, otherwise its first 8000. |
| Mistral.OnlyPromptTextMatters | mistral_parser.py:53 | Two texts that agree on their first 8000 characters give the same extraction. |
| Mistral.CleanReply | mistral_parser.py:101-114 | The cleaned reply is stripped. A reply without a fence is only stripped. |
| Mistral.CleanFencedReply | mistral_parser.py:114 | A reply made of an opening json fence (three backticks and "json"), text without backticks and a closing fence (three backticks) cleans to exactly that text, stripped. |
| Mistral.BracketSpan | mistral_parser.py:117-122 | A span found is the text from the first '[' of the input to its last ']', so it starts with '[' and ends with ']'. There is none exactly when no '[' is followed by a ']'. |
| Mistral.RecordsOfReply | mistral_parser.py:101-190 | Every record drawn from a model reply has a DD/MM/YYYY date and a stripped label. |
| Mistral.MistralFromPrompt | mistral_parser.py:38-201 | A missing or empty API key is the only error. A failed call gives no transactions, and every record returned is validated. |
| Mistral.ExtractWithMistral | mistral_parser.py:23-201 | Extraction fails exactly when the API key is missing or empty. |
| Mistral.MistralSummary | mistral_parser.py:252-262 | The summary holds the transactions and their count, and success means at least one. The method is "mistral-ai" and the bank defaults to "unknown". The text length is recorded, and a preview of the first 500 characters exactly when not in debug. |
| Mistral.ExtractWithMistralDetailed | mistral_parser.py:244-262 | Fails exactly when extraction fails; otherwise it is the summary of the extraction. |
| Extraction.FallbackLinesClean | parsers.py:468 | Every line handed to the parsers is non-empty, stripped and holds no newline. |
| Extraction.Fallback | parsers.py:465-493 | The fallback fails with ([], "ERROR") exactly when it finds no transaction. Otherwise it names the detected bank, and its transactions are those the detected bank's parser reads from the cleaned lines. Whenever that parser finds any, they are the result. |
| Extraction.UnparsedBanksFail | parsers.py:473-493 | SG, BNP and unknown banks always end in ([], "ERROR"). |
| Extraction.BankHint | parsers.py:429-437 | The hint is LCL, CREDIT_AGRICOLE or BANQUE_POPULAIRE, and is absent exactly when none of the four keywords occurs. |
| Extraction.TextAfterOcr | parsers.py:400-408 | Text with fewer than 100 non-blank characters is replaced by the OCR text when OCR succeeds, and kept otherwise. |
| Extraction.ExtractFromText | parsers.py:397-493 | No transactions exactly when the code is "ERROR", and under 50 characters is a failure. From 50 stripped characters on, Mistral's transactions win with the code "MISTRAL_AI" whenever Mistral succeeds with at least one, and otherwise the fallback decides. |
| Extraction.NoKeyMeansFallback | parsers.py:426-459 | Without an API key the regex fallback decides. |
| ScanDetection.IsScannedPdf | ocr_utils.py:19-72 | The method computes the rule. An unreadable PDF is native and one without pages is scanned. Otherwise it is scanned when the first three pages have under 200 non-blank characters, under 50 words or fewer than two banking words. |
| ScanDetection.NativeMeans | ocr_utils.py:29-72 | A PDF is native exactly when unreadable, or when its first pages pass all three thresholds with two different banking words. |
| ScanDetection.PresentCountTwo | ocr_utils.py:59-62 | The count of banking words reaches two exactly when two different ones occur. |
| ScanDetection.WordCountBound | ocr_utils.py:46-49 | Every word found has at least three letters, so a text holds at most a third of its length in words. |
| ScanDetection.OnlyFirstPagesMatter | ocr_utils.py:37 | Pages after the third never change the decision. |
| ScanDetection.ExtractTextSmart | ocr_utils.py:164-183 | OCR text and true when the PDF is judged scanned; direct text and false otherwise, which includes an unreadable PDF. A failure of the extraction that was chosen propagates. |
| Backend.ParseAuthorization | backend-main.py:169-179 | Every failure is a 401, a missing header being "No token provided". A header that does not split into exactly two words is "Invalid token format". With two words, a first word other than "bearer" in any case is "Invalid authentication scheme", and otherwise the second word is the token. A token has no whitespace. |
| Backend.BearerHeaderYieldsToken | backend-main.py:175-178 | "Bearer &lt;token&gt;", in any case of the scheme, yields the token. |
| Backend.MonthlyLimit | backend-main.py:482-483 | Only "pro" is unlimited; every other plan's limit is 5 or 50. |
| Backend.QuotaByPlan | backend-main.py:482-489 | Pro is never refused. Premium is refused from 50 conversions and any other plan from 5. |
| Backend.PolicyFor | backend-main.py:519-565 | A rejection is reportable unless it is a scan. It is recorded unless it is a scan, and notified exactly for an unsupported bank. |
| Backend.NotifyOnlyRecorded | backend-main.py:519-565 | A notified rejection is always recorded and reportable. A scan is neither recorded, notified nor reportable. |
| Backend.StoredErrorMessage | backend-main.py:529 | The stored message is the first min(500, length) characters of "&lt;type&gt;: &lt;message&gt;". |
| Backend.SupportSubject | backend-main.py:236 | The posted subject is the first min(256, length) characters of the subject. |
| Backend.SupportMessage | backend-main.py:237 | A message of at most 1024 characters is posted whole. A longer one becomes its first 1021 characters and "...", 1024 in all. |
| Backend.NotificationOf | backend-main.py:185-201 | The notified bank is the stored one, or "Inconnue" when it is empty. The notified message is the first min(1024, length) characters of the stored one. |
| Backend.NotifiedMessageWhole | backend-main.py:201 | A stored message (500 at most) is always notified whole. |
| Backend.PdfSuffixRewritten | backend-main.py:427 | A name ending in ".pdf" gets "_EXTRAIT.xlsx" in place of that suffix, and the rest is rewritten as before. |
| Backend.NameWithoutPdfKept | backend-main.py:1286 | A name without ".pdf" is unchanged. |
| Backend.ReplaceAllSplits | backend-main.py:427 | Replacing all occurrences distributes over a concatenation whose seam no occurrence straddles. |
| Backend.KeywordsIn | backend-main.py:767 | The keywords listed are keywords of the bank that occur, and every keyword of the bank that occurs is listed. None is listed exactly when none occurs. |
| Backend.KeywordsInInOrder | backend-main.py:767 | The list is the bank's keywords filtered by occurrence, in their original order. |
| Backend.KeywordScanListsBank | backend-main.py:766-769 | A bank is listed, with its keywords that occur, exactly when one of them occurs. |
| Backend.KeywordScanNames | backend-main.py:766-769 | Every bank listed comes from the table. |
| Backend.DebugScanListsBank | backend-main.py:754-769 | For the diagnostic table, a bank is listed exactly when one of its keywords occurs in the upper-cased text. |
| Backend.DebugKeywordScan | backend-main.py:754-769 | The loop computes the scan over the table, in the table's order. |
| Backend.ChooseTransactions | backend-main.py:574-617 | No transactions (a 400) exactly when Mistral gives none and the fallback finds none. When Mistral succeeds with a non-zero count, its transactions are kept with the method "mistral-ai". Otherwise a non-empty fallback result is kept with the method "regex-fallback". |
| Backend.RejectionRow | backend-main.py:521-533 | The stored message has at most 500 characters and is notified whole. |
| Backend.CountNewUpload | backend-main.py:627-637 | Storing one upload adds one to its month's count and leaves every other month's unchanged. |
| Backend.Store.GuestEligible | backend-main.py:373-380 | An IP is eligible exactly when no guest conversion was recorded for it. |
| Backend.Store.UploadGuest | backend-main.py:382-438 | A non-PDF is a 400 "Only PDF files allowed" and a used IP a 403 with the free-trial detail. An empty workbook for an eligible IP is a 400 "No transactions found". A conversion is recorded, and the IP made ineligible, exactly when the workbook is produced. The workbook is named by the rewrite, and no other table changes. |
| Backend.Store.UploadPdf | backend-main.py:441-663 | A non-PDF is a 400, an unknown user a 401 and a reached quota a 403, and a 401 or 403 arises only in those cases. Past those checks the answer is the one stated stage by stage by `ConversionAnswer`: a reading error is a 400 with the reading-error detail and under 100 characters a 400. A rejected statement gets an error body, a verdict without a bank is a 500, and no transactions or an empty workbook are 400s. Otherwise it is a success for the validator's bank with the chosen transactions, and its message shows the new count and the plan's limit. Only a success stores an upload and adds one to the month's counter, which then stays within the plan's limit. A rejection returns the validator's message and records and notifies as the policy says (`RejectionLogged`). Failure leaves uploads alone. After a failure the counts are unchanged, except that a PDF from a known user has its month's row opened at 0 when missing. |
| Backend.Store.Admit | backend-main.py:461-489 | A non-PDF is a 400 and an unknown user a 401, both leaving usage unchanged. For a known user, the month's row is opened with 0 when missing. Then a reached quota is a 403 naming the plan's limit, and otherwise the upload is admitted below that limit. |
| Backend.Store.Convert | backend-main.py:493-663 | From text extraction on, every input gets the answer `ConversionAnswer` gives for its stage. A reading error is a 400 with "Erreur lors de la lecture du PDF: " and under 100 characters a 400. A rejection follows the policy, a missing bank is a 500, and no transactions or an empty workbook are 400s. Otherwise the validator's bank, the chosen transactions and method, and the workbook count one upload, and the message shows the new count. Errors are only 400s and 500s. |
| Backend.Store.OpenUsage | backend-main.py:470-480 | The month's usage row is created with 0 when missing, and its count returned. |
| Backend.Store.RecordRejection | backend-main.py:514-566 | The error answer carries the validator's bank (default UNKNOWN), message, type and reportability. The row is added when recorded and the notification when notified. |
| Backend.Store.CountUpload | backend-main.py:626-637 | The upload is stored, its month's counter goes up by one and the invariant holds. |

## Left out

- Reading the PDF (pdfplumber), OCR (pdf2image, Tesseract, OpenCV), the Mistral API call, json.loads, Excel generation (pandas), the validator (bank_detector.py is not part of this model), JWT verification, password hashing, Stripe, Discord I/O, the clock and logging: their results are parameters. The modelled decisions are taken on those results.
- Async execution and database transactions: each endpoint is one atomic method on `Store`.
- Discord notifications become an outbox field (`notifications`) rather than HTTP posts.
- The month and year of the usage row are parameters (the source reads the UTC clock).
- Regex character classes: `\d` is ASCII digits. `\w` covers ASCII and Latin-1 word characters and nothing beyond U+00FF. `str.upper()`/`lower()` are modelled on ASCII and Latin-1 only; multi-character mappings such as ß → SS are not modelled.
- Floating point: amounts are exact reals. `float()` is modelled on decimal literals (sign, digits, point, exponent); "inf", "nan" and underscores in digits are not accepted, and rounding to a double is not modelled.
- LclParser.LclStep: the amount is the exact decimal value of the matched digits, not `float()` of it.
- The header regex of the LCL parser cannot match "AOÛT" (Û is outside its month-letter class). The model keeps this behaviour rather than correcting it.
- Backend.Store.UploadPdf: a reading error of the PDF is the 400 that `extract_text_from_pdf` raises, "Erreur lors de la lecture du PDF: " followed by the error text, which is a parameter. The exact `str()` of arbitrary exceptions is not modelled.
- Backend.Validation: the verdict's `error_type` and `bank` are each either a string or absent. A key that is present with the value None is not distinguished from an absent key, because `bank_detector.validate_statement` is not part of this model. For such a None value the source differs from the model in four ways:
  - the stored `bank_name` is NULL, not "Inconnue" (backend-main.py:528);
  - the answer's `bank_detected` is null, not "UNKNOWN" (backend-main.py:560);
  - the stored message starts with "None: ", not "UNKNOWN: " (backend-main.py:515, 529);
  - a compatible verdict with a None bank goes on with no bank type, where the model answers the 500 of a missing key (backend-main.py:570).
- Backend.Store.UploadGuest: the workbook is a parameter. It stands for `generate_excel` applied to the transactions `extract_from_pdf` returns, which is empty exactly when there are none (parsers.py:506-509). The extraction is not run inside the method.
- Backend.Store.UploadPdf: the Mistral summary is an input. It stands for `Mistral.ExtractWithMistralDetailed` on the text and the validator's bank, whose chat call and JSON decoder are themselves parameters; the call is not made inside the method.
- Backend.Store.UploadPdf: the regex fallback outcome is an input. `extract_from_pdf` catching its own exceptions, and re-reading the PDF, are not modelled.
- The upload id is the index of the stored row (the database's auto-increment is not modelled).
- `/me`, registration, login, admin, support and reporting endpoints, and the SPA, are outside this model apart from the text limits of the support message.

=== FILE: backend.dfy ===
/**
 * The business rules of the HTTP backend (backend-main.py): reading the
 * Authorization header, the monthly quota and the usage counter of
 * upload_pdf, what happens to a statement the validator rejects, the
 * one-trial-per-IP rule for guests, the name of the produced workbook, the
 * length limits of stored and posted texts, and the keyword scan of
 * debug_pdf. The database becomes the fields of a class; JWT checking, the
 * validator, the extraction, the Excel writer and the clock are inputs.
 */
module Backend {
  import opened Wrappers
  import opened Text
  import Transactions
  import Mistral
  import Extraction

  /** An HTTPException: its status code and detail. */
  datatype HttpError = HttpError(status: nat, detail: string)

  // ------------------------------------------------- Authorization header

  const NoTokenDetail := "No token provided"
  const BadFormatDetail := "Invalid token format"
  const BadSchemeDetail := "Invalid authentication scheme"

  /**
   * get_current_user before the JWT check: a missing or empty header, a
   * header that does not split into exactly two words, or a scheme other
   * than "bearer" in any case, is a 401; otherwise the second word is the
   * token.
   */
  function ParseAuthorization(header: Option<string>): (r: Result<string, HttpError>)
    ensures r.Err? ==> r.error.status == 401
    ensures header.None? || header.value == [] ==> r == Err(HttpError(401, NoTokenDetail))
    ensures r.Ok? ==> r.value != [] && NoSpace(r.value)
    ensures r.Ok? ==> exists scheme :: SplitWhitespace(header.value) == [scheme, r.value] && Lower(scheme) == "bearer"
    ensures header.Some? && header.value != [] && |SplitWhitespace(header.value)| != 2 ==>
              r == Err(HttpError(401, BadFormatDetail))
    ensures header.Some? && header.value != [] && |SplitWhitespace(header.value)| == 2 ==>
              var parts := SplitWhitespace(header.value);
              r == if Lower(parts[0]) == "bearer" then Ok(parts[1]) else Err(HttpError(401, BadSchemeDetail))
  {
    if header.None? || header.value == [] then Err(HttpError(401, NoTokenDetail))
    else
      var parts := SplitWhitespace(header.value);
      if |parts| != 2 then Err(HttpError(401, BadFormatDetail))
      else if Lower(parts[0]) != "bearer" then Err(HttpError(401, BadSchemeDetail))
      else Ok(parts[1])
  }

  /** A run of non-whitespace that ends at a space or at the end is read whole. */
  lemma {:induction false} WordRunIs(s: string, p: nat, n: nat)
    requires p + n <= |s|
    requires forall i :: p <= i < p + n ==> !IsSpace(s[i])
    requires p + n == |s| || IsSpace(s[p + n])
    ensures WordRun(s, p) == n
    decreases n
  {
    if n > 0 {
      WordRunIs(s, p + 1, n - 1);
    }
  }

  /** Two words separated by one space split back into those two words. */
  lemma {:induction false} SplitTwoWords(a: string, b: string)
    requires a != [] && b != [] && NoSpace(a) && NoSpace(b)
    ensures SplitWhitespace(a + " " + b) == [a, b]
  {
    var s := a + " " + b;
    FirstWordRuns(a, b);
    SplitStep(s, 0, 0, |a|);
    SecondWordRuns(a, b);
    SplitStep(s, |a|, |a| + 1, |b|);
    assert SplitWhitespace(s, |s|) == [];
  }

  /** In a + " " + b the first word starts at once and is a. */
  lemma {:induction false} FirstWordRuns(a: string, b: string)
    requires a != [] && NoSpace(a)
    ensures var s := a + " " + b;
            SpaceRun(s, 0) == 0 && WordRun(s, 0) == |a| && s[0..|a|] == a
  {
    var s := a + " " + b;
    assert s[0] == a[0];
    assert IsSpace(s[|a|]);
    WordRunIs(s, 0, |a|);
  }

  /** In a + " " + b one space follows a, and then the second word is b. */
  lemma {:induction false} SecondWordRuns(a: string, b: string)
    requires b != [] && NoSpace(b)
    ensures var s := a + " " + b;
            SpaceRun(s, |a|) == 1 && WordRun(s, |a| + 1) == |b| && s[|a| + 1..|a| + 1 + |b|] == b
  {
    var s := a + " " + b;
    var p := |a| + 1;
    assert s[p..] == b;
    assert forall i :: p <= i < |s| ==> s[i] == b[i - p];
    assert !IsSpace(s[p]);
    assert SpaceRun(s, p) == 0;
    assert IsSpace(s[|a|]);
    assert SpaceRun(s, |a|) == 1 + SpaceRun(s, p);
    WordRunIs(s, p, |b|);
  }

  /** One turn of str.split(): skip the spaces from p to q, then take the word of n characters at q. */
  lemma {:induction false} SplitStep(s: string, p: nat, q: nat, n: nat)
    requires p <= q < |s| && SpaceRun(s, p) == q - p && WordRun(s, q) == n
    ensures SplitWhitespace(s, p) == [s[q..q + n]] + SplitWhitespace(s, q + n)
  {
    assert p + SpaceRun(s, p) == q;
  }

  /** A well-formed "Bearer <token>" header, whatever the case of the scheme, yields the token. */
  lemma {:induction false} BearerHeaderYieldsToken(scheme: string, token: string)
    requires NoSpace(scheme) && Lower(scheme) == "bearer"
    requires token != [] && NoSpace(token)
    ensures ParseAuthorization(Some(scheme + " " + token)) == Ok(token)
  {
    SplitTwoWords(scheme, token);
  }

  // ---------------------------------------------------------------- quota

  /** limits.get(tier, 5) with limits = {"free": 5, "premium": 50, "pro": None}; None is unlimited. */
  function MonthlyLimit(tier: string): (limit: Option<nat>)
    ensures limit.None? <==> tier == "pro"
    ensures limit.Some? ==> limit.value in {5, 50}
  {
    if tier == "free" then Some(5)
    else if tier == "premium" then Some(50)
    else if tier == "pro" then None
    else Some(5)
  }

  /** The upload is refused (403) when the limit is finite and already reached. */
  predicate QuotaReached(tier: string, uploadsCount: nat) {
    var limit := MonthlyLimit(tier);
    limit.Some? && uploadsCount >= limit.value
  }

  /** Pro users are never refused; everyone else is refused from their plan's count on. */
  lemma {:induction false} QuotaByPlan(tier: string, uploadsCount: nat)
    ensures tier == "pro" ==> !QuotaReached(tier, uploadsCount)
    ensures tier == "premium" ==> (QuotaReached(tier, uploadsCount) <==> uploadsCount >= 50)
    ensures tier != "pro" && tier != "premium" ==> (QuotaReached(tier, uploadsCount) <==> uploadsCount >= 5)
  {
  }

  /** "5", "50" or "∞", as the success message shows the limit. */
  function LimitText(limit: Option<nat>): string {
    if limit.Some? then NatToString(limit.value) else "\U{221E}"
  }

  // --------------------------------------------------------- error policy

  const ScannedPdf := "SCANNED_PDF"
  const BankNotSupported := "BANK_NOT_SUPPORTED"

  /** What upload_pdf does with a statement the validator rejects, by error type. */
  datatype ErrorPolicy = ErrorPolicy(canReport: bool, record: bool, notify: bool)

  function PolicyFor(errorType: string): (p: ErrorPolicy)
    ensures !p.canReport <==> errorType == ScannedPdf
    ensures p.record <==> errorType != ScannedPdf
    ensures p.notify <==> errorType == BankNotSupported
  {
    ErrorPolicy(errorType != ScannedPdf, errorType != ScannedPdf, errorType == BankNotSupported)
  }

  /** Only recorded failures are ever notified, and a scan is never reported, recorded or notified. */
  lemma {:induction false} NotifyOnlyRecorded(errorType: string)
    ensures PolicyFor(errorType).notify ==> PolicyFor(errorType).record && PolicyFor(errorType).canReport
    ensures errorType == ScannedPdf ==> PolicyFor(errorType) == ErrorPolicy(false, false, false)
  {
  }

  // ---------------------------------------------------------- text limits

  /** The stored error message: f"{error_type}: {message}"[:500]. */
  function StoredErrorMessage(errorType: string, message: string): (r: string)
    ensures |r| == Min(500, |errorType + ": " + message|)
    ensures r == (errorType + ": " + message)[..|r|]
    ensures |errorType + ": " + message| <= 500 ==> r == errorType + ": " + message
  {
    Take(errorType + ": " + message, 500)
  }

  /** The support subject as posted: subject[:256]. */
  function SupportSubject(subject: string): (r: string)
    ensures |r| == Min(256, |subject|) && r == subject[..|r|]
    ensures |subject| <= 256 ==> r == subject
  {
    Take(subject, 256)
  }

  /** The support message as posted: kept up to 1024 characters, else cut to 1021 and marked with "...". */
  function SupportMessage(message: string): (r: string)
    ensures |r| <= 1024
    ensures |message| <= 1024 ==> r == message
    ensures |message| > 1024 ==> |r| == 1024 && r[..1021] == message[..1021] && r[1021..] == "..."
  {
    if |message| <= 1024 then Take(message, 1024) else message[..1021] + "..."
  }

  /** A failed-conversion row, as stored. */
  datatype FailedConversion = FailedConversion(
    id: nat, userEmail: string, filename: string, bankName: string, errorMessage: string)

  /** The values of the Discord notification's fields: file, user, bank (or "Inconnue"), message[:1024], id. */
  datatype NotificationFields = NotificationFields(
    filename: string, user: string, bank: string, errorMessage: string, recordId: string)

  function NotificationOf(fc: FailedConversion): (n: NotificationFields)
    ensures n.bank == if fc.bankName == [] then "Inconnue" else fc.bankName
    ensures |n.errorMessage| == Min(1024, |fc.errorMessage|) && n.errorMessage == fc.errorMessage[..|n.errorMessage|]
  {
    NotificationFields(
      fc.filename, fc.userEmail, if fc.bankName == [] then "Inconnue" else fc.bankName,
      Take(fc.errorMessage, 1024), "#" + NatToString(fc.id))
  }

  /** A stored message is at most 500 characters, so the notification posts it whole. */
  lemma {:induction false} NotifiedMessageWhole(id: nat, email: string, filename: string, bank: string, errorType: string, message: string)
    ensures var fc := FailedConversion(id, email, filename, bank, StoredErrorMessage(errorType, message));
            NotificationOf(fc).errorMessage == fc.errorMessage
  {
  }

  // ----------------------------------------------------------- filenames

  /** file.filename.replace(".pdf", "_EXTRAIT.xlsx"). */
  function OutputFilename(name: string): string {
    ReplaceAll(name, ".pdf", "_EXTRAIT.xlsx")
  }

  /** No occurrence of pat starts in a and runs on into b. */
  predicate NoStraddle(a: string, b: string, pat: string) {
    forall i: nat :: |a| < i + |pat| && i < |a| ==> !OccursAt(a + b, pat, i)
  }

  /** Dropping the first d characters of a keeps the seam free of occurrences. */
  lemma {:induction false} NoStraddleShift(a: string, b: string, pat: string, d: nat)
    requires d <= |a| && NoStraddle(a, b, pat)
    ensures NoStraddle(a[d..], b, pat)
  {
    var s := a + b;
    assert a[d..] + b == s[d..];
    forall i: nat | |a[d..]| < i + |pat| && i < |a[d..]|
      ensures !OccursAt(a[d..] + b, pat, i)
    {
      OccursAtShift(s, pat, d, i);
      assert !OccursAt(s, pat, i + d);
    }
  }

  /** An occurrence in s[d..] at i is an occurrence in s at i + d. */
  lemma {:induction false} OccursAtShift(s: string, pat: string, d: nat, i: nat)
    requires d <= |s|
    ensures OccursAt(s[d..], pat, i) <==> OccursAt(s, pat, i + d)
  {
    if i + d + |pat| <= |s| {
      assert s[d..][i..i + |pat|] == s[i + d..i + d + |pat|];
    }
  }

  /** With no occurrence across the seam, replacing in a + b replaces in a and in b separately. */
  lemma {:induction false} ReplaceAllSplits(a: string, b: string, pat: string, rep: string)
    requires |pat| > 0 && NoStraddle(a, b, pat)
    ensures ReplaceAll(a + b, pat, rep) == ReplaceAll(a, pat, rep) + ReplaceAll(b, pat, rep)
    decreases |a|
  {
    var s := a + b;
    if a == [] {
      assert s == b;
    } else if |s| < |pat| {
      assert ReplaceAll(a, pat, rep) == a && ReplaceAll(b, pat, rep) == b;
    } else if s[..|pat|] == pat {
      assert |a| >= |pat| by {
        assert OccursAt(s, pat, 0);
      }
      ReplaceAllSplitsAtMatch(a, b, pat, rep);
    } else {
      ReplaceAllSplitsNoMatch(a, b, pat, rep);
    }
  }

  /** The case of ReplaceAllSplits where the pattern starts a. */
  lemma {:induction false} ReplaceAllSplitsAtMatch(a: string, b: string, pat: string, rep: string)
    requires |pat| > 0 && NoStraddle(a, b, pat)
    requires |a| >= |pat| && (a + b)[..|pat|] == pat
    ensures ReplaceAll(a + b, pat, rep) == ReplaceAll(a, pat, rep) + ReplaceAll(b, pat, rep)
    decreases |a|, 0
  {
    var s := a + b;
    assert a[..|pat|] == pat;
    assert s[|pat|..] == a[|pat|..] + b;
    NoStraddleShift(a, b, pat, |pat|);
    ReplaceAllSplits(a[|pat|..], b, pat, rep);
  }

  /** The case of ReplaceAllSplits where the pattern does not start a + b. */
  lemma {:induction false} ReplaceAllSplitsNoMatch(a: string, b: string, pat: string, rep: string)
    requires |pat| > 0 && NoStraddle(a, b, pat)
    requires a != [] && |a + b| >= |pat| && (a + b)[..|pat|] != pat
    ensures ReplaceAll(a + b, pat, rep) == ReplaceAll(a, pat, rep) + ReplaceAll(b, pat, rep)
    decreases |a|, 0
  {
    var s := a + b;
    assert s[1..] == a[1..] + b;
    assert ReplaceAll(s, pat, rep) == [a[0]] + ReplaceAll(a[1..] + b, pat, rep);
    NoStraddleShift(a, b, pat, 1);
    ReplaceAllSplits(a[1..], b, pat, rep);
    ReplaceAllHead(a, s, pat, rep);
  }

  /** ReplaceAll moves past the first character of a when no occurrence starts there. */
  lemma {:induction false} ReplaceAllHead(a: string, s: string, pat: string, rep: string)
    requires |pat| > 0 && a != [] && |s| >= |pat| && s[..|pat|] != pat
    requires |a| <= |s| && a == s[..|a|]
    ensures ReplaceAll(a, pat, rep) == [a[0]] + ReplaceAll(a[1..], pat, rep)
  {
    if |a| >= |pat| {
      assert a[..|pat|] == s[..|pat|];
    } else {
      assert ReplaceAll(a, pat, rep) == a;
      assert ReplaceAll(a[1..], pat, rep) == a[1..];
    }
  }

  /** A name ending in ".pdf" ends in "_EXTRAIT.xlsx" instead, the rest being rewritten on its own. */
  lemma {:induction false} PdfSuffixRewritten(stem: string)
    ensures OutputFilename(stem + ".pdf") == OutputFilename(stem) + "_EXTRAIT.xlsx"
  {
    var s := stem + ".pdf";
    assert NoStraddle(stem, ".pdf", ".pdf") by {
      forall i: nat | |stem| < i + 4 && i < |stem| ensures !OccursAt(s, ".pdf", i) {
        var d := |stem| - i;
        assert s[i..i + 4][d] == s[|stem|] == '.';
        assert ".pdf"[d] != '.';
      }
    }
    ReplaceAllSplits(stem, ".pdf", ".pdf", "_EXTRAIT.xlsx");
    assert ".pdf"[..4] == ".pdf";
    assert ".pdf"[4..] == [];
  }

  /** A name without ".pdf" is kept as it is. */
  lemma {:induction false} NameWithoutPdfKept(name: string)
    requires !Contains(name, ".pdf")
    ensures OutputFilename(name) == name
  {
    ReplaceAllAbsent(name, ".pdf", "_EXTRAIT.xlsx");
  }

  // ------------------------------------------------------ debug keyword scan

  /** The banks debug_pdf looks for, each with its keywords (all already upper-case), in table order. */
  const DebugKeywords: seq<(string, seq<string>)> := [
    ("Cr\U{E9}dit Mutuel", ["CREDIT MUTUEL", "CM11", "CMUT"]),
    ("BNP Paribas", ["BNP PARIBAS", "BNPP"]),
    ("Soci\U{E9}t\U{E9} G\U{E9}n\U{E9}rale", ["SOCIETE GENERALE", "SG"]),
    ("Caisse d'\U{C9}pargne", ["CAISSE D'EPARGNE", "CAISSE EPARGNE"]),
    ("LCL", ["LCL", "CREDIT LYONNAIS"]),
    ("Banque Populaire", ["BANQUE POPULAIRE", "BP"]),
    ("La Banque Postale", ["BANQUE POSTALE", "LA POSTE"])
  ]

  /** [kw for kw in kws if kw in u], in order. */
  function KeywordsIn(kws: seq<string>, u: string): (found: seq<string>)
    ensures |found| <= |kws|
    ensures forall k :: 0 <= k < |found| ==> found[k] in kws && Contains(u, found[k])
    ensures found == [] <==> forall k :: 0 <= k < |kws| ==> !Contains(u, kws[k])
    ensures forall k :: 0 <= k < |kws| && Contains(u, kws[k]) ==> kws[k] in found
  {
    if kws == [] then []
    else
      var rest := KeywordsIn(kws[1..], u);
      assert forall k :: 1 <= k < |kws| ==> kws[k] == kws[1..][k - 1];
      if Contains(u, kws[0]) then [kws[0]] + rest else rest
  }

  /** The test the comprehension applies to each keyword. */
  function KeywordHit(u: string): string -> Option<string> {
    kw => if Contains(u, kw) then Some(kw) else None
  }

  /**
   * KeywordsIn keeps the found keywords in the order of kws: it is the
   * order-preserving filter of kws by containment in u.
   */
  lemma {:induction false} KeywordsInInOrder(kws: seq<string>, u: string)
    ensures KeywordsIn(kws, u) == Transactions.FilterMap(kws, KeywordHit(u))
  {
    if kws != [] {
      KeywordsInInOrder(kws[1..], u);
    }
  }

  /** The bank_keywords_found dictionary, as its entries in insertion order. */
  function KeywordScan(table: seq<(string, seq<string>)>, u: string): (found: seq<(string, seq<string>)>)
    ensures |found| <= |table|
    ensures forall k :: 0 <= k < |found| ==> found[k].1 != []
  {
    if table == [] then []
    else
      var entry := table[|table| - 1];
      var hits := KeywordsIn(entry.1, u);
      KeywordScan(table[..|table| - 1], u) + (if hits != [] then [(entry.0, hits)] else [])
  }

  /** Bank names of a table are pairwise different. */
  predicate DistinctNames(table: seq<(string, seq<string>)>) {
    forall a, b :: 0 <= a < b < |table| ==> table[a].0 != table[b].0
  }

  /** A bank is listed, with the keywords of it that occur, exactly when some of its keywords occur. */
  lemma {:induction false} KeywordScanListsBank(table: seq<(string, seq<string>)>, u: string, j: nat)
    requires j < |table| && DistinctNames(table)
    ensures (table[j].0, KeywordsIn(table[j].1, u)) in KeywordScan(table, u)
            <==> KeywordsIn(table[j].1, u) != []
    ensures (exists e :: e in KeywordScan(table, u) && e.0 == table[j].0)
            <==> KeywordsIn(table[j].1, u) != []
    decreases |table|
  {
    var init := table[..|table| - 1];
    var last := |table| - 1;
    var hits := KeywordsIn(table[last].1, u);
    var tail := if hits != [] then [(table[last].0, hits)] else [];
    assert KeywordScan(table, u) == KeywordScan(init, u) + tail;
    if j < last {
      assert init[j] == table[j];
      DistinctNamesInit(table);
      KeywordScanListsBank(init, u, j);
      var entry := (table[j].0, KeywordsIn(table[j].1, u));
      assert forall e :: e in tail ==> e.0 != table[j].0;
      assert entry in KeywordScan(table, u) <==> entry in KeywordScan(init, u);
      assert (exists e :: e in KeywordScan(table, u) && e.0 == table[j].0)
             <==> (exists e :: e in KeywordScan(init, u) && e.0 == table[j].0);
    } else {
      KeywordScanListsLast(table, u);
    }
  }

  /** Dropping the last bank keeps the names distinct. */
  lemma {:induction false} DistinctNamesInit(table: seq<(string, seq<string>)>)
    requires |table| > 0 && DistinctNames(table)
    ensures DistinctNames(table[..|table| - 1])
  {
    var init := table[..|table| - 1];
    forall a, b | 0 <= a < b < |init| ensures init[a].0 != init[b].0 {
      assert init[a] == table[a] && init[b] == table[b];
    }
  }

  /** The last bank of a table is listed exactly when some of its keywords occur. */
  lemma {:induction false} KeywordScanListsLast(table: seq<(string, seq<string>)>, u: string)
    requires |table| > 0 && DistinctNames(table)
    ensures var last := |table| - 1;
            && ((table[last].0, KeywordsIn(table[last].1, u)) in KeywordScan(table, u)
                <==> KeywordsIn(table[last].1, u) != [])
            && ((exists e :: e in KeywordScan(table, u) && e.0 == table[last].0)
                <==> KeywordsIn(table[last].1, u) != [])
  {
    var init := table[..|table| - 1];
    var last := |table| - 1;
    var prefix := KeywordScan(init, u);
    var hits := KeywordsIn(table[last].1, u);
    var tail := if hits != [] then [(table[last].0, hits)] else [];
    assert KeywordScan(table, u) == prefix + tail;
    KeywordScanNames(init, u);
    forall e: (string, seq<string>) | e in prefix ensures e.0 != table[last].0 {
      var i :| 0 <= i < |init| && init[i].0 == e.0;
      assert init[i] == table[i];
    }
  }

  /** Every listed bank is a bank of the table. */
  lemma {:induction false} KeywordScanNames(table: seq<(string, seq<string>)>, u: string)
    ensures forall e :: e in KeywordScan(table, u) ==> exists i :: 0 <= i < |table| && table[i].0 == e.0
  {
    if table != [] {
      var init := table[..|table| - 1];
      var last := |table| - 1;
      KeywordScanNames(init, u);
      var prefix := KeywordScan(init, u);
      var hits := KeywordsIn(table[last].1, u);
      var tail := if hits != [] then [(table[last].0, hits)] else [];
      assert KeywordScan(table, u) == prefix + tail;
      forall e: (string, seq<string>) | e in prefix + tail ensures exists i :: 0 <= i < |table| && table[i].0 == e.0 {
        if e in prefix {
          var i :| 0 <= i < |init| && init[i].0 == e.0;
          assert table[i] == init[i];
        } else {
          assert table[last].0 == e.0;
        }
      }
    } else {
      assert KeywordScan(table, u) == [];
    }
  }

  /** The debug table names each bank once, so a bank is listed exactly when one of its keywords occurs. */
  lemma {:induction false} DebugScanListsBank(text: string, j: nat)
    requires j < |DebugKeywords|
    ensures (exists e :: e in KeywordScan(DebugKeywords, Upper(text)) && e.0 == DebugKeywords[j].0)
            <==> exists w :: 0 <= w < |DebugKeywords[j].1| && Contains(Upper(text), DebugKeywords[j].1[w])
    ensures (DebugKeywords[j].0, KeywordsIn(DebugKeywords[j].1, Upper(text))) in KeywordScan(DebugKeywords, Upper(text))
            <==> exists w :: 0 <= w < |DebugKeywords[j].1| && Contains(Upper(text), DebugKeywords[j].1[w])
  {
    KeywordScanListsBank(DebugKeywords, Upper(text), j);
  }

  /** The loop of debug_pdf that fills bank_keywords_found. */
  method DebugKeywordScan(text: string) returns (found: seq<(string, seq<string>)>)
    ensures found == KeywordScan(DebugKeywords, Upper(text))
  {
    var u := Upper(text);
    found := [];
    for k := 0 to |DebugKeywords|
      invariant found == KeywordScan(DebugKeywords[..k], u)
    {
      var (bank, kws) := DebugKeywords[k];
      assert DebugKeywords[..k + 1][..k] == DebugKeywords[..k];
      var hits := KeywordsIn(kws, u);
      if hits != [] {
        found := found + [(bank, hits)];
      }
    }
    assert DebugKeywords[..|DebugKeywords|] == DebugKeywords;
  }

  // ------------------------------------------------------------- the store

  /** The validator's verdict (validate_statement is not part of this model). */
  datatype Validation = Validation(
    compatible: bool, errorType: Option<string>, bank: Option<string>, message: string)

  /** The usage_logs row key: a user and a calendar month. */
  datatype UsageKey = UsageKey(email: string, month: nat, year: int)

  /** A month's upload count: its usage row's, or 0 when the row does not exist yet. */
  function CountOf(usage: map<UsageKey, nat>, key: UsageKey): nat {
    if key in usage then usage[key] else 0
  }

  /** The usage table with the month's row created, with 0, when missing. */
  function WithRow(usage: map<UsageKey, nat>, key: UsageKey): (table: map<UsageKey, nat>)
    ensures key in table && table[key] == CountOf(usage, key)
    ensures forall k :: k != key ==> CountOf(table, k) == CountOf(usage, k)
  {
    if key in usage then usage else usage[key := 0]
  }

  /** An uploads row, with the month it was counted in. */
  datatype UploadRow = UploadRow(email: string, filename: string, bankType: string, transactionCount: nat,
                                 month: nat, year: int)

  /** A guest_conversions row. */
  datatype GuestConversion = GuestConversion(ip: string, userAgent: string)

  /** The status field of an /upload answer: "success" or "error". */
  datatype UploadStatus = Success | Error

  /** The body of a 200 from /upload. */
  datatype UploadResponse = UploadResponse(
    uploadId: Option<nat>, status: UploadStatus, transactionsCount: nat, bankDetected: string, message: string,
    errorType: Option<string>, canReport: Option<bool>, extractionMethod: Option<string>)

  /** A workbook sent back with its attachment name. */
  datatype Workbook = Workbook(content: seq<bv8>, filename: string)

  /** The number of uploads counted for a user and month. */
  function UploadsIn(uploads: seq<UploadRow>, key: UsageKey): (n: nat)
    ensures n <= |uploads|
  {
    if uploads == [] then 0
    else
      var row := uploads[|uploads| - 1];
      UploadsIn(uploads[..|uploads| - 1], key)
        + (if UsageKey(row.email, row.month, row.year) == key then 1 else 0)
  }

  /** validation_result.get("error_type", "UNKNOWN"). */
  function ErrorTypeOf(validation: Validation): string {
    if validation.errorType.Some? then validation.errorType.value else "UNKNOWN"
  }

  /** The failed-conversion row stored for a rejected statement; the bank defaults to "Inconnue". */
  function RejectionRow(id: nat, email: string, filename: string, validation: Validation): (row: FailedConversion)
    ensures |row.errorMessage| <= 500
    ensures NotificationOf(row).errorMessage == row.errorMessage
  {
    FailedConversion(id, email, filename, if validation.bank.Some? then validation.bank.value else "Inconnue",
                     StoredErrorMessage(ErrorTypeOf(validation), validation.message))
  }

  /**
   * The log after a rejected statement: its failed-conversion row is stored
   * and notified as the error policy says, after what was there before.
   */
  predicate RejectionLogged(failedBefore: seq<FailedConversion>, notifiedBefore: seq<NotificationFields>,
                            failed: seq<FailedConversion>, notified: seq<NotificationFields>,
                            email: string, filename: string, validation: Validation)
  {
    var policy := PolicyFor(ErrorTypeOf(validation));
    var row := RejectionRow(|failedBefore| + 1, email, filename, validation);
    && failed == failedBefore + (if policy.record then [row] else [])
    && notified == notifiedBefore + (if policy.notify then [NotificationOf(row)] else [])
  }

  const PdfContentType := "application/pdf"

  const GuestNotPdfDetail := "Only PDF files allowed"
  const GuestUsedDetail :=
    "Vous avez d\U{E9}j\U{E0} utilis\U{E9} votre conversion gratuite. Cr\U{E9}ez un compte pour continuer !"
  const GuestNoTransactionsDetail := "No transactions found"
  const NotPdfDetail := "Seuls les fichiers PDF sont accept\U{E9}s"
  const UserNotFoundDetail := "User not found"
  const EmptyPdfDetail := "Le PDF semble vide ou illisible. Assurez-vous qu'il contient du texte extractible."
  const ServerErrorPrefix := "Erreur serveur: "
  const ReadErrorPrefix := "Erreur lors de la lecture du PDF: "
  const NoTransactionsDetail :=
    "Impossible d'extraire les transactions: 400: Aucune transaction trouv\U{E9}e avec les m\U{E9}thodes disponibles."
  const ExcelErrorDetail := "Erreur lors de la g\U{E9}n\U{E9}ration du fichier Excel"

  /** The 403 detail, naming the plan's limit. */
  function QuotaDetail(limit: Option<nat>): string {
    "Limite mensuelle atteinte (" + LimitText(limit) + " conversions). Passez \U{E0} un plan sup\U{E9}rieur."
  }

  /** "<n> transactions extraites avec succès ! (<count>/<limit> ce mois)". */
  function SuccessMessage(n: nat, count: nat, limit: Option<nat>): string {
    NatToString(n) + " transactions extraites avec succ\U{E8}s ! (" + NatToString(count) + "/" + LimitText(limit) + " ce mois)"
  }

  /**
   * The answer upload_pdf gives once the quota check has passed, stage by
   * stage: a reading error of the PDF and a text under 100 characters are
   * 400s, a statement the validator rejects gets an error body, a verdict
   * without a bank is the generic 500, no transactions and an empty
   * workbook are 400s, and otherwise the conversion succeeds for the
   * validator's bank with the chosen transactions and method.
   */
  predicate ConversionAnswer(text: Result<string, string>, validation: Validation,
                             chosen: Option<(seq<Transactions.Transaction>, string)>, excel: seq<bv8>,
                             r: Result<UploadResponse, HttpError>)
  {
    && (text.Err? ==> r == Err(HttpError(400, ReadErrorPrefix + text.error)))
    && (text.Ok? && |text.value| < 100 ==> r == Err(HttpError(400, EmptyPdfDetail)))
    && (text.Ok? && |text.value| >= 100 ==>
          && (!validation.compatible ==> r.Ok? && r.value.status == Error)
          && (validation.compatible && validation.bank.None? ==> r == Err(HttpError(500, ServerErrorPrefix + "'bank'")))
          && (validation.compatible && validation.bank.Some? && chosen.None? ==>
                r == Err(HttpError(400, NoTransactionsDetail)))
          && (validation.compatible && validation.bank.Some? && chosen.Some? && excel == [] ==>
                r == Err(HttpError(400, ExcelErrorDetail)))
          && (validation.compatible && validation.bank.Some? && chosen.Some? && excel != [] ==>
                && r.Ok? && r.value.status == Success && r.value.bankDetected == validation.bank.value
                && r.value.transactionsCount == |chosen.value.0|
                && r.value.extractionMethod == Some(chosen.value.1)))
  }

  /**
   * The transactions upload_pdf keeps and how they were found: Mistral's
   * when it succeeds with at least one, otherwise the regex fallback's when
   * it finds any, otherwise none (a 400).
   */
  function ChooseTransactions(mistral: Result<Mistral.Summary, string>, fallback: Extraction.Outcome)
    : (r: Option<(seq<Transactions.Transaction>, string)>)
    ensures r.None? <==> !(mistral.Ok? && mistral.value.success && mistral.value.count != 0) && fallback.transactions == []
    ensures r.Some? && r.value.1 == "mistral-ai" ==> mistral.Ok? && r.value.0 == mistral.value.transactions
    ensures r.Some? && r.value.1 != "mistral-ai" ==> r.value == (fallback.transactions, "regex-fallback") && r.value.0 != []
    ensures r.Some? ==> r.value.1 in {"mistral-ai", "regex-fallback"}
    ensures mistral.Ok? && mistral.value.success && mistral.value.count != 0 ==>
              r == Some((mistral.value.transactions, "mistral-ai"))
    ensures !(mistral.Ok? && mistral.value.success && mistral.value.count != 0) && fallback.transactions != [] ==>
              r == Some((fallback.transactions, "regex-fallback"))
  {
    if mistral.Ok? && mistral.value.success && mistral.value.count != 0 then Some((mistral.value.transactions, "mistral-ai"))
    else if fallback.transactions != [] then Some((fallback.transactions, "regex-fallback"))
    else None
  }


  /**
   * The database tables the endpoints touch. The usage counters agree with
   * the uploads stored: each month's counter is the number of uploads made
   * in it.
   */
  class Store {
    var users: map<string, string>
    var usage: map<UsageKey, nat>
    var uploads: seq<UploadRow>
    var failedConversions: seq<FailedConversion>
    var notifications: seq<NotificationFields>
    var guestConversions: seq<GuestConversion>

    ghost predicate Valid()
      reads this
    {
      forall key :: UploadsIn(uploads, key) == CountOf(usage, key)
    }

    constructor (users: map<string, string>)
      ensures Valid()
      ensures this.users == users && usage == map[] && uploads == []
      ensures failedConversions == [] && notifications == [] && guestConversions == []
    {
      this.users := users;
      usage := map[];
      uploads := [];
      failedConversions := [];
      notifications := [];
      guestConversions := [];
    }

    /** /check-guest-eligibility: no conversion recorded for the IP yet. */
    function GuestEligible(ip: string): (eligible: bool)
      reads this
      ensures eligible <==> forall k :: 0 <= k < |guestConversions| ==> guestConversions[k].ip != ip
    {
      forall k :: 0 <= k < |guestConversions| ==> guestConversions[k].ip != ip
    }

    /**
     * /upload-guest. Only a PDF is taken, an IP that already converted is
     * refused with 403, an empty workbook is a 400, and a conversion that
     * succeeds records the IP, so the next attempt from it is refused.
     */
    method UploadGuest(contentType: string, ip: string, userAgent: string, filename: string,
                       excel: seq<bv8>)
      returns (r: Result<Workbook, HttpError>)
      modifies this
      ensures users == old(users) && usage == old(usage) && uploads == old(uploads)
      ensures failedConversions == old(failedConversions) && notifications == old(notifications)
      ensures contentType != PdfContentType ==> r == Err(HttpError(400, GuestNotPdfDetail))
      ensures contentType == PdfContentType && !old(GuestEligible(ip)) ==> r == Err(HttpError(403, GuestUsedDetail))
      ensures contentType == PdfContentType && old(GuestEligible(ip)) && excel == []
              ==> r == Err(HttpError(400, GuestNoTransactionsDetail))
      ensures r.Err? ==> guestConversions == old(guestConversions)
      ensures r.Ok? <==> contentType == PdfContentType && old(GuestEligible(ip)) && excel != []
      ensures r.Ok? ==> guestConversions == old(guestConversions) + [GuestConversion(ip, userAgent)]
      ensures r.Ok? ==> r.value == Workbook(excel, OutputFilename(filename)) && !GuestEligible(ip)
    {
      if contentType != PdfContentType {
        return Err(HttpError(400, GuestNotPdfDetail));
      }
      if !GuestEligible(ip) {
        return Err(HttpError(403, GuestUsedDetail));
      }
      if excel == [] {
        return Err(HttpError(400, GuestNoTransactionsDetail));
      }
      guestConversions := guestConversions + [GuestConversion(ip, userAgent)];
      assert guestConversions[|guestConversions| - 1].ip == ip;
      return Ok(Workbook(excel, OutputFilename(filename)));
    }

    /**
     * /upload, from the user lookup on. A missing user is a 401 and a
     * reached quota a 403 (the month's usage row is created first, with 0).
     * A statement the validator rejects is recorded and notified as its
     * error policy says and answered with an error body; the counter moves
     * only when a workbook is produced and stored.
     */
    method UploadPdf(email: string, contentType: string, filename: string, month: nat, year: int,
                     text: Result<string, string>, validation: Validation,
                     mistral: Result<Mistral.Summary, string>, fallback: Extraction.Outcome, excel: seq<bv8>)
      returns (r: Result<UploadResponse, HttpError>)
      requires Valid()
      modifies this
      ensures Valid()
      ensures users == old(users) && guestConversions == old(guestConversions)
      ensures contentType != PdfContentType ==> r.Err? && r.error.status == 400 && usage == old(usage)
      ensures contentType == PdfContentType && email !in users ==> r.Err? && r.error.status == 401 && usage == old(usage)
      ensures var key := UsageKey(email, month, year);
              contentType == PdfContentType && email in users
              && QuotaReached(users[email], CountOf(old(usage), key))
              ==> r.Err? && r.error.status == 403
      ensures var key := UsageKey(email, month, year);
              r.Ok? && r.value.status == Success
              ==> && old(key in usage ==> !QuotaReached(users[email], usage[key]))
                  && usage == old(usage)[key := CountOf(old(usage), key) + 1]
                  && validation.compatible && validation.bank == Some(r.value.bankDetected)
                  && uploads == old(uploads) + [UploadRow(email, filename, r.value.bankDetected,
                                                          r.value.transactionsCount, month, year)]
                  && (MonthlyLimit(users[email]).None? || usage[key] <= MonthlyLimit(users[email]).value)
      ensures var key := UsageKey(email, month, year);
              !(r.Ok? && r.value.status == Success)
              ==> && uploads == old(uploads)
                  && usage == if contentType == PdfContentType && email in old(users) then WithRow(old(usage), key) else old(usage)
      ensures r.Ok? && r.value.status == Success
              ==> && text.Ok? && |text.value| >= 100 && excel != []
                  && var chosen := ChooseTransactions(mistral, fallback);
                  && chosen.Some?
                  && r.value.transactionsCount == |chosen.value.0|
                  && r.value.extractionMethod == Some(chosen.value.1)
                  && r.value.uploadId == Some(|uploads|)
      ensures r.Ok? && r.value.status == Error
              ==> && text.Ok? && |text.value| >= 100 && !validation.compatible
                  && r.value.message == validation.message && r.value.transactionsCount == 0
      ensures r.Ok? && r.value.status == Error
              ==> && r.value.canReport == Some(PolicyFor(ErrorTypeOf(validation)).canReport)
                  && RejectionLogged(old(failedConversions), old(notifications), failedConversions, notifications,
                                     email, filename, validation)
      ensures !(r.Ok? && r.value.status == Error) ==> failedConversions == old(failedConversions)
      ensures !(r.Ok? && r.value.status == Error) ==> notifications == old(notifications)
      ensures var key := UsageKey(email, month, year);
              r.Err? && r.error.status == 403
              ==> && contentType == PdfContentType && email in users
                  && QuotaReached(users[email], CountOf(old(usage), key))
      ensures r.Err? && r.error.status == 401 ==> contentType == PdfContentType && email !in users
      ensures var key := UsageKey(email, month, year);
              contentType == PdfContentType && email in users
              && !QuotaReached(users[email], CountOf(old(usage), key))
              ==> && ConversionAnswer(text, validation, ChooseTransactions(mistral, fallback), excel, r)
                  && (r.Ok? && r.value.status == Success ==>
                        r.value.message == SuccessMessage(r.value.transactionsCount, usage[key], MonthlyLimit(users[email])))
    {
      var key := UsageKey(email, month, year);
      var refusal := Admit(email, contentType, key);
      if refusal.Some? {
        return Err(refusal.value);
      }
      r := Convert(email, filename, month, year, MonthlyLimit(users[email]), text, validation, mistral, fallback, excel);
      assert r.Err? ==> r.error.status != 401 && r.error.status != 403;
      if r.Ok? && r.value.status == Success {
        OpenThenCount(old(usage), key);
      }
    }

    /**
     * The checks upload_pdf makes before reading the PDF: a non-PDF is a 400
     * and an unknown user a 401, both before any row is touched; then the
     * month's usage row is opened and a reached quota is a 403 naming the
     * plan's limit.
     */
    method Admit(email: string, contentType: string, key: UsageKey) returns (refusal: Option<HttpError>)
      requires Valid() && key.email == email
      modifies this
      ensures Valid()
      ensures users == old(users) && uploads == old(uploads) && guestConversions == old(guestConversions)
      ensures failedConversions == old(failedConversions) && notifications == old(notifications)
      ensures contentType != PdfContentType ==> refusal == Some(HttpError(400, NotPdfDetail)) && usage == old(usage)
      ensures contentType == PdfContentType && email !in users
              ==> refusal == Some(HttpError(401, UserNotFoundDetail)) && usage == old(usage)
      ensures contentType == PdfContentType && email in users
              ==> && usage == WithRow(old(usage), key)
                  && var current := CountOf(old(usage), key);
                  && (QuotaReached(users[email], current) ==> refusal == Some(HttpError(403, QuotaDetail(MonthlyLimit(users[email])))))
                  && (!QuotaReached(users[email], current) ==> refusal.None?)
      ensures refusal.None? ==> && email in users && key in usage
                                && (MonthlyLimit(users[email]).None? || usage[key] < MonthlyLimit(users[email]).value)
    {
      if contentType != PdfContentType {
        return Some(HttpError(400, NotPdfDetail));
      }
      if email !in users {
        return Some(HttpError(401, UserNotFoundDetail));
      }
      var current := OpenUsage(key);
      if QuotaReached(users[email], current) {
        return Some(HttpError(403, QuotaDetail(MonthlyLimit(users[email]))));
      }
      return None;
    }

    /**
     * upload_pdf once the quota check has passed: the text, the validator's
     * verdict, the choice between Mistral and the regex fallback, the
     * workbook, and on success the stored upload and the counter.
     */
    method Convert(email: string, filename: string, month: nat, year: int, limit: Option<nat>,
                   text: Result<string, string>, validation: Validation,
                   mistral: Result<Mistral.Summary, string>, fallback: Extraction.Outcome, excel: seq<bv8>)
      returns (r: Result<UploadResponse, HttpError>)
      requires Valid() && UsageKey(email, month, year) in usage
      requires limit.None? || usage[UsageKey(email, month, year)] < limit.value
      modifies this
      ensures Valid()
      ensures users == old(users) && guestConversions == old(guestConversions)
      ensures var key := UsageKey(email, month, year);
              r.Ok? && r.value.status == Success
              ==> && usage == old(usage)[key := old(usage)[key] + 1]
                  && (limit.None? || usage[key] <= limit.value)
                  && validation.compatible && validation.bank == Some(r.value.bankDetected)
                  && uploads == old(uploads) + [UploadRow(email, filename, r.value.bankDetected,
                                                          r.value.transactionsCount, month, year)]
                  && text.Ok? && |text.value| >= 100 && excel != []
                  && var chosen := ChooseTransactions(mistral, fallback);
                  && chosen.Some?
                  && r.value.transactionsCount == |chosen.value.0|
                  && r.value.extractionMethod == Some(chosen.value.1)
                  && r.value.uploadId == Some(|uploads|)
      ensures !(r.Ok? && r.value.status == Success) ==> uploads == old(uploads) && usage == old(usage)
      ensures r.Ok? && r.value.status == Error
              ==> && text.Ok? && |text.value| >= 100 && !validation.compatible
                  && r.value.message == validation.message && r.value.transactionsCount == 0
                  && r.value.canReport == Some(PolicyFor(ErrorTypeOf(validation)).canReport)
                  && RejectionLogged(old(failedConversions), old(notifications), failedConversions, notifications,
                                     email, filename, validation)
      ensures !(r.Ok? && r.value.status == Error)
              ==> failedConversions == old(failedConversions) && notifications == old(notifications)
      ensures ConversionAnswer(text, validation, ChooseTransactions(mistral, fallback), excel, r)
      ensures r.Err? ==> r.error.status == 400 || r.error.status == 500
      ensures var key := UsageKey(email, month, year);
              r.Ok? && r.value.status == Success ==> r.value.message == SuccessMessage(r.value.transactionsCount, usage[key], limit)
    {
      var key := UsageKey(email, month, year);
      if text.Err? {
        // extract_text_from_pdf raises a 400, which the handler re-raises as it is.
        return Err(HttpError(400, ReadErrorPrefix + text.error));
      }
      if |text.value| < 100 {
        return Err(HttpError(400, EmptyPdfDetail));
      }
      if !validation.compatible {
        r := RecordRejection(email, filename, validation);
        return;
      }
      if validation.bank.None? {
        // validation_result["bank"] raises KeyError: the generic handler answers 500.
        return Err(HttpError(500, ServerErrorPrefix + "'bank'"));
      }
      var bankType := validation.bank.value;
      var chosen := ChooseTransactions(mistral, fallback);
      if chosen.None? {
        return Err(HttpError(400, NoTransactionsDetail));
      }
      var (transactions, extractionMethod) := chosen.value;
      if excel == [] {
        return Err(HttpError(400, ExcelErrorDetail));
      }
      var count := CountUpload(UploadRow(email, filename, bankType, |transactions|, month, year));
      return Ok(UploadResponse(
        Some(|uploads|), Success, |transactions|, bankType, SuccessMessage(|transactions|, count, limit),
        None, None, Some(extractionMethod)));
    }

    /** The usage row of a user's month, created with a count of 0 when missing. */
    method OpenUsage(key: UsageKey) returns (current: nat)
      requires Valid()
      modifies this
      ensures Valid()
      ensures current == CountOf(old(usage), key)
      ensures usage == WithRow(old(usage), key)
      ensures key in usage && usage[key] == current
      ensures users == old(users) && uploads == old(uploads) && guestConversions == old(guestConversions)
      ensures failedConversions == old(failedConversions) && notifications == old(notifications)
    {
      if key !in usage {
        usage := usage[key := 0];
      }
      current := usage[key];
    }

    /**
     * The rejected-statement branch of upload_pdf: a failed conversion is
     * stored unless the statement is a scan, a notification goes out only
     * for an unsupported bank, and the answer is an error body that says
     * whether the user may report it.
     */
    method RecordRejection(email: string, filename: string, validation: Validation)
      returns (r: Result<UploadResponse, HttpError>)
      modifies this
      ensures users == old(users) && usage == old(usage) && uploads == old(uploads)
      ensures guestConversions == old(guestConversions)
      ensures var errorType := ErrorTypeOf(validation);
              var policy := PolicyFor(errorType);
              var row := RejectionRow(|old(failedConversions)| + 1, email, filename, validation);
              && r == Ok(UploadResponse(None, Error, 0, if validation.bank.Some? then validation.bank.value else "UNKNOWN",
                                        validation.message, Some(errorType), Some(policy.canReport), None))
              && failedConversions == old(failedConversions) + (if policy.record then [row] else [])
              && notifications == old(notifications) + (if policy.notify then [NotificationOf(row)] else [])
    {
      var errorType := ErrorTypeOf(validation);
      var policy := PolicyFor(errorType);
      if policy.record {
        var row := RejectionRow(|failedConversions| + 1, email, filename, validation);
        failedConversions := failedConversions + [row];
        if policy.notify {
          notifications := notifications + [NotificationOf(row)];
        }
      }
      return Ok(UploadResponse(
        None, Error, 0, if validation.bank.Some? then validation.bank.value else "UNKNOWN",
        validation.message, Some(errorType), Some(policy.canReport), None));
    }

    /** Stores a produced upload and adds one to its month's counter, which stays equal to the uploads of that month. */
    method CountUpload(row: UploadRow) returns (count: nat)
      requires Valid()
      modifies this
      ensures Valid()
      ensures var key := UsageKey(row.email, row.month, row.year);
              && uploads == old(uploads) + [row]
              && usage == old(usage)[key := count]
              && count == CountOf(old(usage), key) + 1
      ensures users == old(users) && guestConversions == old(guestConversions)
      ensures failedConversions == old(failedConversions) && notifications == old(notifications)
    {
      var key := UsageKey(row.email, row.month, row.year);
      count := CountOf(usage, key) + 1;
      CountNewUpload(uploads, row);
      uploads := uploads + [row];
      usage := usage[key := count];
    }
  }

  /** Opening a month's row and then counting one upload adds one to the count the month had. */
  lemma {:induction false} OpenThenCount(usage: map<UsageKey, nat>, key: UsageKey)
    ensures WithRow(usage, key)[key := CountOf(WithRow(usage, key), key) + 1] == usage[key := CountOf(usage, key) + 1]
  {
  }

  /** Storing one upload adds one to its own month's count and leaves every other count alone. */
  lemma {:induction false} CountNewUpload(uploads: seq<UploadRow>, row: UploadRow)
    ensures forall key :: UploadsIn(uploads + [row], key)
                          == UploadsIn(uploads, key) + (if UsageKey(row.email, row.month, row.year) == key then 1 else 0)
  {
    assert (uploads + [row])[..|uploads|] == uploads;
  }
}

=== FILE: extraction.dfy ===
/**
 * extract_from_pdf (parsers.py), from the extracted text onward: the OCR
 * retry for nearly empty text, the minimum-length check, the Mistral
 * attempt with a bank hint, and the fallback that splits the text into
 * stripped non-empty lines and dispatches on the detected bank code.
 * pdfplumber and the OCR engine are not modelled: their texts are inputs.
 */
module Extraction {
  import opened Wrappers
  import opened Text
  import opened Transactions
  import opened Parsers
  import LclParser
  import Mistral

  /** What extract_from_pdf returns: the transactions and a bank code, "MISTRAL_AI" or "ERROR". */
  datatype Outcome = Outcome(transactions: seq<Transaction>, bankType: string)

  const Failure := Outcome([], "ERROR")

  /** The bank code as detect_bank_format spells it. */
  function CodeName(b: BankCode): (name: string)
    ensures name != "ERROR" && name != "MISTRAL_AI"
  {
    match b
    case CA => "CA"
    case BP => "BP"
    case LCL => "LCL"
    case SG => "SG"
    case BNP => "BNP"
    case UNKNOWN => "UNKNOWN"
  }

  /** One line of the comprehension: kept stripped when something is left after stripping. */
  function NonBlank(line: string): (r: Option<string>)
    ensures r.Some? ==> r.value == Strip(line) && r.value != []
    ensures r.None? <==> Strip(line) == []
  {
    var l := Strip(line);
    if l == [] then None else Some(l)
  }

  /** [l.strip() for l in text.split('\n') if l.strip()]. */
  function FallbackLines(text: string): (lines: seq<string>)
  {
    FilterMap(SplitOn(text, '\n'), NonBlank)
  }

  /** Every line handed to the parsers is stripped, non-empty and holds no newline. */
  lemma {:induction false} FallbackLinesClean(text: string, k: nat)
    requires k < |FallbackLines(text)|
    ensures var line := FallbackLines(text)[k];
            line != [] && Stripped(line) && '\n' !in line
  {
    var pieces := SplitOn(text, '\n');
    FilterMapOrigin(pieces, NonBlank, k);
    var i :| 0 <= i < |pieces| && NonBlank(pieces[i]) == Some(FallbackLines(text)[k]);
    StripInside(pieces[i]);
  }

  /** Stripping keeps a contiguous piece of the string. */
  lemma {:induction false} StripInside(s: string)
    ensures forall c :: c in Strip(s) ==> c in s
  {
    forall c | c in Strip(s) ensures c in s {
      var k :| 0 <= k < |Strip(s)| && Strip(s)[k] == c;
      StripIsSlice(s, k);
    }
  }

  /** Each character of the stripped string is a character of the original. */
  lemma {:induction false} StripIsSlice(s: string, k: nat)
    requires k < |Strip(s)|
    ensures Strip(s)[k] in s
  {
    var t := TrimStart(s);
    assert t == s[|s| - |t|..];
    assert Strip(s) == TrimEnd(t);
    assert TrimEnd(t) == t[..|TrimEnd(t)|];
    assert Strip(s)[k] == s[|s| - |t| + k];
  }

  /** The parser the fallback runs for a bank code; only CA, BP and LCL have one. */
  function ParseByBank(b: BankCode, lines: seq<string>): (r: seq<Transaction>)
    ensures b != CA && b != BP && b != LCL ==> r == []
  {
    match b
    case CA => FilterMap(lines, CaLine)
    case BP => FilterMap(lines, BpLine)
    case LCL => LclParser.LclTransactions(lines)
    case _ => []
  }

  /** The regex fallback: detect the bank, parse its lines, and report failure when nothing came out. */
  function Fallback(text: string): (r: Outcome)
    ensures r.transactions == [] <==> r.bankType == "ERROR"
    ensures r.bankType != "ERROR" ==> r.bankType == CodeName(DetectBankFormat(text))
    ensures r.bankType != "ERROR" ==> r.transactions == ParseByBank(DetectBankFormat(text), FallbackLines(text))
    ensures ParseByBank(DetectBankFormat(text), FallbackLines(text)) != [] ==>
              r == Outcome(ParseByBank(DetectBankFormat(text), FallbackLines(text)), CodeName(DetectBankFormat(text)))
  {
    var b := DetectBankFormat(text);
    var txs := ParseByBank(b, FallbackLines(text));
    if txs != [] then Outcome(txs, CodeName(b)) else Failure
  }

  /** Banks without a parser (SG, BNP and unknown ones) end in ([], "ERROR"). */
  lemma {:induction false} UnparsedBanksFail(text: string)
    requires DetectBankFormat(text) in {SG, BNP, UNKNOWN}
    ensures Fallback(text) == Failure
  {
  }

  /** The bank hint passed to Mistral: LCL first, then Crédit Agricole, then Banque Populaire. */
  function BankHint(text: string): (hint: Option<string>)
    ensures hint.Some? ==> hint.value in {"LCL", "CREDIT_AGRICOLE", "BANQUE_POPULAIRE"}
    ensures hint.None? <==> !ContainsAny(Upper(text), ["LCL", "CREDIT LYONNAIS", "CREDIT AGRICOLE", "BANQUE POPULAIRE"])
  {
    var u := Upper(text);
    HintKeywordCases(u);
    if Contains(u, "LCL") || Contains(u, "CREDIT LYONNAIS") then Some("LCL")
    else if Contains(u, "CREDIT AGRICOLE") then Some("CREDIT_AGRICOLE")
    else if Contains(u, "BANQUE POPULAIRE") then Some("BANQUE_POPULAIRE")
    else None
  }

  /** Some hint keyword occurs exactly when one of the four named ones does. */
  lemma {:induction false} HintKeywordCases(u: string)
    ensures ContainsAny(u, ["LCL", "CREDIT LYONNAIS", "CREDIT AGRICOLE", "BANQUE POPULAIRE"])
            <==> Contains(u, "LCL") || Contains(u, "CREDIT LYONNAIS")
                 || Contains(u, "CREDIT AGRICOLE") || Contains(u, "BANQUE POPULAIRE")
  {
    var keys := ["LCL", "CREDIT LYONNAIS", "CREDIT AGRICOLE", "BANQUE POPULAIRE"];
    if ContainsAny(u, keys) {
      var k :| 0 <= k < |keys| && Contains(u, keys[k]);
      assert k in {0, 1, 2, 3};
    } else {
      assert !Contains(u, keys[0]) && !Contains(u, keys[1]) && !Contains(u, keys[2]) && !Contains(u, keys[3]);
    }
  }

  /** The text analysed: nearly empty extracted text is replaced by the OCR text when OCR succeeds. */
  function TextAfterOcr(extracted: string, ocr: Option<string>): (text: string)
    ensures |Strip(extracted)| >= 100 || ocr.None? ==> text == extracted
    ensures |Strip(extracted)| < 100 && ocr.Some? ==> text == ocr.value
  {
    if |Strip(extracted)| < 100 && ocr.Some? then ocr.value else extracted
  }

  /**
   * extract_from_pdf once the text is extracted: too little text is an
   * error; otherwise Mistral's non-empty result wins, and the regex fallback
   * runs when Mistral raises or finds nothing.
   */
  function ExtractFromText(extracted: string, ocr: Option<string>, apiKey: Option<string>,
                           llm: (string, Option<string>) -> Mistral.LlmReply,
                           decode: string -> Option<seq<Mistral.JsonValue>>): (r: Outcome)
    ensures r.transactions == [] <==> r.bankType == "ERROR"
    ensures |Strip(TextAfterOcr(extracted, ocr))| < 50 ==> r == Failure
    ensures r.bankType == "MISTRAL_AI" ==>
              var text := TextAfterOcr(extracted, ocr);
              Mistral.ExtractWithMistral(apiKey, text, BankHint(text), llm, decode) == Ok(r.transactions)
    ensures r.bankType != "MISTRAL_AI" && |Strip(TextAfterOcr(extracted, ocr))| >= 50 ==>
              r == Fallback(TextAfterOcr(extracted, ocr))
    ensures var text := TextAfterOcr(extracted, ocr);
            var mistral := Mistral.ExtractWithMistral(apiKey, text, BankHint(text), llm, decode);
            |Strip(text)| >= 50 ==>
              r == if mistral.Ok? && mistral.value != [] then Outcome(mistral.value, "MISTRAL_AI") else Fallback(text)
  {
    var text := TextAfterOcr(extracted, ocr);
    if |Strip(text)| < 50 then Failure
    else
      var mistral := Mistral.ExtractWithMistral(apiKey, text, BankHint(text), llm, decode);
      if mistral.Ok? && |mistral.value| > 0 then Outcome(mistral.value, "MISTRAL_AI")
      else Fallback(text)
  }

  /** Without an API key Mistral raises and the regex fallback decides. */
  lemma {:induction false} NoKeyMeansFallback(extracted: string, ocr: Option<string>,
                           llm: (string, Option<string>) -> Mistral.LlmReply,
                           decode: string -> Option<seq<Mistral.JsonValue>>)
    requires |Strip(TextAfterOcr(extracted, ocr))| >= 50
    ensures ExtractFromText(extracted, ocr, None, llm, decode) == Fallback(TextAfterOcr(extracted, ocr))
  {
  }
}

=== FILE: lcl_parser.dfy ===
/**
 * extract_lcl_transactions of parsers.py, the LCL "PAIEMENTS PAR CARTE"
 * parser. It works in three passes over the statement lines:
 *   1. the header among the first 30 lines gives the statement's month and year;
 *   2. the section runs from the line after the last header that precedes the
 *      first "TOTAUX" line up to that line;
 *   3. an index-driven loop reads "LE JJ/MM" lines, taking the amount from the
 *      end of the line or else from the start of the next line, which is then
 *      consumed.
 * The functions below specify each pass and ExtractLclTransactions runs them
 * as the source does.
 */
module LclParser {
  import opened Wrappers
  import opened Text
  import opened Transactions
  import opened Parsers

  const HeaderKeyword := "PAIEMENTS PAR CARTE"
  const HeaderPrefix := "PAIEMENTS PAR CARTE D"
  const SectionEnd := "TOTAUX"
  const HeaderScanLimit: nat := 30
  const DefaultYear := "2025"

  const LclSkipKeywords: seq<string> := [
    "SOUS TOTAL", "LIBELLE", "VALEUR", "DEBIT", "CREDIT",
    "CARTE N\U{B0}", "Page", "Cr\U{E9}dit Lyonnais", "SIREN", "RCS", "ORIAS",
    "Indicatif", "Compte"
  ]

  /** The month names the header may carry, with int() of the month number the source maps each to. */
  const MonthNumbers: map<string, nat> := map[
    "JANVIER" := 1, "F\U{C9}VRIER" := 2, "FEVRIER" := 2,
    "MARS" := 3, "AVRIL" := 4, "MAI" := 5, "JUIN" := 6,
    "JUILLET" := 7, "AO\U{DB}T" := 8, "AOUT" := 8,
    "SEPTEMBRE" := 9, "OCTOBRE" := 10, "NOVEMBRE" := 11,
    "D\U{C9}CEMBRE" := 12, "DECEMBRE" := 12
  ]

  // ----------------------------------------------------- pass 1: the header

  /** The character class [A-ZÉÈÊÀÙ]. */
  predicate IsMonthLetter(c: char) {
    'A' <= c <= 'Z' || c == '\U{C9}' || c == '\U{C8}' || c == '\U{CA}' || c == '\U{C0}' || c == '\U{D9}'
  }

  /** The length of the run of month letters that starts at index p. */
  function LetterRun(s: string, p: nat): (n: nat)
    ensures p + n <= |s| || n == 0
    ensures forall i :: p <= i < p + n ==> IsMonthLetter(s[i])
    decreases |s| - p
  {
    if p < |s| && IsMonthLetter(s[p]) then 1 + LetterRun(s, p + 1) else 0
  }

  /** What the header pattern captured: the month word and the four-digit year. */
  datatype Header = Header(month: string, year: string)

  predicate ValidHeader(h: Header) {
    |h.month| >= 1 && |h.year| == 4 && AllDigits(h.year)
  }

  /**
   * `\s*([A-ZÉÈÊÀÙ]+)\s+(\d{4})` tried at r. Neither whitespace nor a digit is
   * a month letter, so each greedy run can only succeed when it is maximal:
   * giving characters back leaves one of the wrong class where the next
   * element must start.
   */
  function HeaderTailAt(s: string, r: nat): (h: Option<Header>)
    ensures h.Some? ==> ValidHeader(h.value)
  {
    var a := SpaceRun(s, r);
    var l := LetterRun(s, r + a);
    var b := SpaceRun(s, r + a + l);
    var y := r + a + l + b;
    if l >= 1 && b >= 1 && y + 4 <= |s| && AllDigits(s[y..y + 4])
    then Some(Header(s[r + a..r + a + l], s[y..y + 4]))
    else None
  }

  /**
   * `PAIEMENTS PAR CARTE D[E']?\s*([A-ZÉÈÊÀÙ]+)\s+(\d{4})` tried at p. The
   * optional `[E']` is first tried with the character, then without it; so
   * "DE 2025" (no month word) still matches, with "E" as the month.
   */
  function HeaderAt(s: string, p: nat): (h: Option<Header>)
    ensures h.Some? ==> ValidHeader(h.value)
  {
    if !OccursAt(s, HeaderPrefix, p) then None
    else
      var q := p + |HeaderPrefix|;
      if q < |s| && (s[q] == 'E' || s[q] == '\'') && HeaderTailAt(s, q + 1).Some?
      then HeaderTailAt(s, q + 1)
      else HeaderTailAt(s, q)
  }

  /** What one line of pass 1 yields: the header match of the upper-cased line, if it holds the keyword. */
  function HeaderOfLine(line: string): (h: Option<Header>)
    ensures h.Some? ==> ValidHeader(h.value)
  {
    var u := Upper(line);
    if !Contains(u, HeaderKeyword) then None
    else match SearchFrom(u, 0, HeaderAt)
      case Some(m) => Some(m.found)
      case None => None
  }

  /** Pass 1 from line k on: the first header among the first 30 lines. */
  function HeaderFrom(lines: seq<string>, k: nat): (h: Option<Header>)
    ensures h.Some? ==> ValidHeader(h.value)
    ensures h.Some? ==> exists j :: k <= j < Min(HeaderScanLimit, |lines|) && HeaderOfLine(lines[j]) == h
    decreases |lines| - k
  {
    if k >= Min(HeaderScanLimit, |lines|) then None
    else if HeaderOfLine(lines[k]).Some? then HeaderOfLine(lines[k])
    else HeaderFrom(lines, k + 1)
  }

  /** The statement's year and int() of its month number; the month is absent when not in the table. */
  datatype Period = Period(year: string, month: Option<nat>)

  predicate ValidPeriod(p: Period) {
    |p.year| == 4 && AllDigits(p.year) && (p.month.Some? ==> 1 <= p.month.value <= 12)
  }

  /** The month number the table gives a month word, if any. */
  function MonthNumber(word: string): (m: Option<nat>)
    ensures m.Some? ==> 1 <= m.value <= 12
  {
    if word in MonthNumbers then Some(MonthNumbers[word]) else None
  }

  /** The period pass 1 settles on: the header's, else year 2025 with no month. */
  function PeriodOf(h: Option<Header>): (p: Period)
    requires h.Some? ==> ValidHeader(h.value)
    ensures ValidPeriod(p)
    ensures h.None? ==> p.year == DefaultYear && p.month.None?
    ensures h.Some? ==> p.year == h.value.year
  {
    match h
    case None => Period(DefaultYear, None)
    case Some(hd) => Period(hd.year, MonthNumber(Upper(hd.month)))
  }

  // ---------------------------------------------------- pass 2: the section

  predicate IsHeaderLine(line: string) {
    Contains(Upper(line), HeaderKeyword)
  }

  predicate IsTotalsLine(line: string) {
    Contains(Upper(line), SectionEnd)
  }

  /** The section bounds: lines[start:end]. */
  datatype Section = Section(start: nat, end: nat)

  /**
   * Pass 2 from line idx on, with `start` the start found so far: every
   * header line moves the start to the line after it, and the first
   * "TOTAUX" line met once a start is known ends the section.
   */
  function SectionFrom(lines: seq<string>, idx: nat, start: Option<nat>): Option<Section>
    decreases |lines| - idx
  {
    if idx >= |lines| then
      (if start.Some? then Some(Section(start.value, |lines|)) else None)
    else
      var start': Option<nat> := if IsHeaderLine(lines[idx]) then Some(idx + 1) else start;
      if start'.Some? && IsTotalsLine(lines[idx]) then Some(Section(start'.value, idx))
      else SectionFrom(lines, idx + 1, start')
  }

  /** No "TOTAUX" line among lines[..n] stands at or after a header line. */
  predicate NoTotalsAfterHeader(lines: seq<string>, n: nat) {
    forall j, k :: 0 <= j <= k < n && k < |lines| && IsHeaderLine(lines[j]) ==> !IsTotalsLine(lines[k])
  }

  /**
   * What the section is: it starts after a header line and stops at the first
   * "TOTAUX" line at or after the first header, or at the end; no header
   * stands inside it nor on its stopping line, so its header is the last one
   * at or before the stop (a line that is both header and "TOTAUX" gives the
   * empty section just after it).
   */
  predicate SectionBounds(lines: seq<string>, sec: Section) {
    && 1 <= sec.start <= |lines| && IsHeaderLine(lines[sec.start - 1])
    && sec.start - 1 <= sec.end <= |lines|
    && (sec.end < |lines| ==> IsTotalsLine(lines[sec.end]))
    && (forall k :: sec.start <= k <= sec.end && k < |lines| ==> !IsHeaderLine(lines[k]))
    && NoTotalsAfterHeader(lines, sec.end)
  }

  /** What pass 2 knows after idx lines, given the start it holds. */
  predicate ScanState(lines: seq<string>, idx: nat, start: Option<nat>) {
    && idx <= |lines|
    && (start.None? ==> forall k :: 0 <= k < idx ==> !IsHeaderLine(lines[k]))
    && (start.Some? ==> 1 <= start.value <= idx && IsHeaderLine(lines[start.value - 1])
                        && forall k :: start.value <= k < idx ==> !IsHeaderLine(lines[k]))
    && NoTotalsAfterHeader(lines, idx)
  }

  lemma {:induction false} SectionFromFacts(lines: seq<string>, idx: nat, start: Option<nat>)
    requires ScanState(lines, idx, start)
    ensures SectionFrom(lines, idx, start).None? <==>
              start.None? && forall k :: idx <= k < |lines| ==> !IsHeaderLine(lines[k])
    ensures SectionFrom(lines, idx, start).Some? ==> SectionBounds(lines, SectionFrom(lines, idx, start).value)
    decreases |lines| - idx
  {
    if idx < |lines| {
      var start': Option<nat> := if IsHeaderLine(lines[idx]) then Some(idx + 1) else start;
      if start'.Some? && IsTotalsLine(lines[idx]) {
      } else {
        assert ScanState(lines, idx + 1, start') by {
          forall j, k | 0 <= j <= k < idx + 1 && k < |lines| && IsHeaderLine(lines[j])
            ensures !IsTotalsLine(lines[k])
          {
          }
        }
        SectionFromFacts(lines, idx + 1, start');
      }
    }
  }

  /** Pass 2 finds a section exactly when some line holds the header, and the section has the shape above. */
  lemma {:induction false} SectionOfLines(lines: seq<string>)
    ensures SectionFrom(lines, 0, None).None? <==> forall k :: 0 <= k < |lines| ==> !IsHeaderLine(lines[k])
    ensures SectionFrom(lines, 0, None).Some? ==> SectionBounds(lines, SectionFrom(lines, 0, None).value)
  {
    SectionFromFacts(lines, 0, None);
  }

  // ------------------------------------------------ pass 3: the transactions

  /** The two groups of `LE\s+(\d{1,2})/(\d{1,2})`: the day and month digits as written. */
  datatype DayMonthDigits = DayMonthDigits(day: string, month: string)

  predicate ValidDayMonthDigits(d: DayMonthDigits) {
    1 <= |d.day| <= 2 && AllDigits(d.day) && 1 <= |d.month| <= 2 && AllDigits(d.month)
  }

  /**
   * `LE\s+(\d{1,2})/(\d{1,2})` tried at p. The whitespace run must be whole
   * (a digit has to follow it); the day takes a run of one or two digits that
   * is followed by '/' (with three or more digits neither choice meets a
   * '/'); the month takes up to two digits.
   */
  function LclDateAt(s: string, p: nat): (r: Option<DayMonthDigits>)
    ensures r.Some? ==> ValidDayMonthDigits(r.value)
  {
    if !OccursAt(s, "LE", p) then None
    else
      var a := SpaceRun(s, p + 2);
      var q := p + 2 + a;
      var n := DigitRun(s, q);
      if a == 0 || n == 0 || n > 2 || q + n >= |s| || s[q + n] != '/' then None
      else
        var m := Min(DigitRun(s, q + n + 1), 2);
        if m == 0 then None
        else Some(DayMonthDigits(s[q..q + n], s[q + n + 1..q + n + 1 + m]))
  }

  /** str.zfill(2) on a string of one or two digits. */
  function ZFill2(d: string): (r: string)
    requires 1 <= |d| <= 2 && AllDigits(d)
    ensures |r| == 2 && AllDigits(r) && DigitsValue(r) == DigitsValue(d)
    ensures r[2 - |d|..] == d
  {
    if |d| < 2 then
      var r := "0" + d;
      assert r[..1] == "0";
      r
    else d
  }

  /**
   * `(\d{1,}[,\.]\d{2})\s*$` tried at p: an amount whose rest of the line is
   * whitespace. A digit after the two decimals fails `\s*$`, and no other
   * split of the digits can help.
   */
  function TrailingAmountAt(s: string, p: nat): (r: Option<AmountMatch>)
    ensures r.Some? ==> WellFormedAmount(r.value) && r.value.end <= |s| && AllSpace(s[r.value.end..])
  {
    match DecimalAt(s, p, {',', '.'})
    case Some(m) => if AllSpace(s[m.end..]) then Some(m) else None
    case None => None
  }

  /** re.match of `^(\d{1,}[,\.]\d{2})`: an amount at the start of the line. */
  function LeadingAmount(s: string): (r: Option<AmountMatch>)
    ensures r.Some? ==> WellFormedAmount(r.value)
  {
    DecimalAt(s, 0, {',', '.'})
  }

  /** -float() of the matched amount, with ',' read as the decimal point. */
  function Debit(m: AmountMatch): (v: real)
    requires WellFormedAmount(m)
    ensures v <= 0.0
  {
    -(UnitsValue(m) as real + DigitsValue(m.cents) as real / 100.0)
  }

  /**
   * The year a transaction dated in the given month gets. The branch for a
   * January transaction on a December statement sits inside the test
   * `month > period's month`, which 1 never passes, so every transaction
   * gets the period's year.
   */
  function TransactionYear(period: Period, month: string): (y: string)
    requires ValidPeriod(period) && |month| >= 1 && AllDigits(month)
    ensures y == period.year
  {
    var mois := DigitsValue(month);
    var annee := DigitsValue(period.year);
    match period.month
    case None => period.year
    case Some(num) =>
      if mois < num then period.year
      else if mois > num then
        (if num == 12 && mois == 1 then IntToString(annee - 1) else period.year)
      else period.year
  }

  /** An LCL record: JJ/MM/<period year> with two-digit day and month, a label of at least 3 characters, a debit. */
  predicate LclRecord(t: Transaction, period: Period) {
    && |t.date| == 10 && DayMonthShape(t.date, "/" + period.year)
    && |t.libelle| >= 3 && Stripped(t.libelle)
    && t.montant <= 0.0
  }

  /** The date text of a record: zero-padded day and month, then the year. */
  function LclDateText(d: DayMonthDigits, period: Period): (date: string)
    requires ValidDayMonthDigits(d) && ValidPeriod(period)
    ensures |date| == 10 && DayMonthShape(date, "/" + period.year)
  {
    var mois := ZFill2(d.month);
    var date := ZFill2(d.day) + "/" + mois + "/" + TransactionYear(period, mois);
    assert date == ZFill2(d.day) + "/" + mois + ("/" + period.year);
    DayMonthShapeOf(ZFill2(d.day), mois, "/" + period.year);
    date
  }

  /**
   * The turn of the loop at index i of the section lines. The next index is
   * i + 2 exactly when the amount was read from the next line, which is then
   * skipped; the label is then the whole line.
   */
  function LclStep(tl: seq<string>, i: nat, period: Period): (st: Step<Transaction>)
    requires i < |tl| && ValidPeriod(period)
    ensures st.next == i + 1 || st.next == i + 2
    ensures st.next <= |tl|
    ensures st.record.Some? ==> LclRecord(st.record.value, period)
    ensures st.next == i + 2 ==> st.record.Some? && st.record.value.libelle == Strip(tl[i])
                                 && LeadingAmount(Strip(tl[i + 1])).Some?
                                 && st.record.value.montant == Debit(LeadingAmount(Strip(tl[i + 1])).value)
  {
    var line := Strip(tl[i]);
    if line == [] || ContainsAny(line, LclSkipKeywords) then Step(None, i + 1)
    else match SearchFrom(line, 0, LclDateAt)
      case None => Step(None, i + 1)
      case Some(d) =>
        var date := LclDateText(d.found, period);
        match SearchFrom(line, 0, TrailingAmountAt)
        case Some(a) =>
          var libelle := Strip(line[..a.start]);
          if |libelle| >= 3 then Step(Some(Transaction(date, libelle, Debit(a.found))), i + 1)
          else Step(None, i + 1)
        case None =>
          if i + 1 < |tl| && LeadingAmount(Strip(tl[i + 1])).Some? && |line| >= 3
          then Step(Some(Transaction(date, line, Debit(LeadingAmount(Strip(tl[i + 1])).value))), i + 2)
          else Step(None, i + 1)
  }

  /**
   * When a turn yields a record, and what it holds. The line, once stripped,
   * must be non-blank, free of skip keywords and hold a date, whose first
   * match gives the record's date. With a trailing amount, the label is the
   * stripped text before the amount's first match and must be at least 3
   * characters long. Without one, the next line must start with an amount,
   * which is the record's amount, and the whole line must be at least
   * 3 characters long and is the label.
   */
  lemma {:induction false} LclStepFields(tl: seq<string>, i: nat, period: Period)
    requires i < |tl| && ValidPeriod(period)
    ensures var line := Strip(tl[i]);
            var d := SearchFrom(line, 0, LclDateAt);
            var a := SearchFrom(line, 0, TrailingAmountAt);
            var st := LclStep(tl, i, period);
            && (st.record.Some? <==>
                  && line != [] && !ContainsAny(line, LclSkipKeywords) && d.Some?
                  && (a.Some? ==> |Strip(line[..a.value.start])| >= 3)
                  && (a.None? ==> i + 1 < |tl| && LeadingAmount(Strip(tl[i + 1])).Some? && |line| >= 3))
            && (st.record.Some? ==>
                  && d.Some? && st.record.value.date == LclDateText(d.value.found, period)
                  && (a.Some? ==> && st.next == i + 1
                                  && st.record.value.libelle == Strip(line[..a.value.start])
                                  && st.record.value.montant == Debit(a.value.found))
                  && (a.None? ==> && st.next == i + 2 && st.record.value.libelle == line
                                  && st.record.value.montant == Debit(LeadingAmount(Strip(tl[i + 1])).value)))
  {
  }

  /** The loop's turn at every index of the section lines. */
  function StepsOf(tl: seq<string>, period: Period): (steps: seq<Step<Transaction>>)
    requires ValidPeriod(period)
    ensures |steps| == |tl|
  {
    seq(|tl|, j requires 0 <= j < |tl| => LclStep(tl, j, period))
  }

  /** The records pass 3 appends to the list, from the turn at index 0 on. */
  function ParseLines(tl: seq<string>, period: Period): (r: seq<Transaction>)
    requires ValidPeriod(period)
    ensures |r| <= |tl|
    ensures forall k :: 0 <= k < |r| ==> LclRecord(r[k], period)
  {
    var r := RunSteps(StepsOf(tl, period), 0);
    assert forall k :: 0 <= k < |r| ==> LclRecord(r[k], period) by {
      forall k | 0 <= k < |r| ensures LclRecord(r[k], period) {
        RunStepsOrigin(StepsOf(tl, period), 0, k);
      }
    }
    r
  }

  /** What extract_lcl_transactions returns for the given lines. */
  function LclTransactions(lines: seq<string>): (r: seq<Transaction>)
    ensures forall k :: 0 <= k < |r| ==> LclRecord(r[k], PeriodOf(HeaderFrom(lines, 0)))
  {
    match SectionFrom(lines, 0, None)
    case None => []
    case Some(sec) => ParseLines(Slice(lines, sec.start, sec.end), PeriodOf(HeaderFrom(lines, 0)))
  }

  /** Without a "PAIEMENTS PAR CARTE" line there is no section and nothing is extracted. */
  lemma {:induction false} NoHeaderNoTransactions(lines: seq<string>)
    requires forall k :: 0 <= k < |lines| ==> !IsHeaderLine(lines[k])
    ensures LclTransactions(lines) == []
  {
    SectionOfLines(lines);
  }

  /**
   * Every record's year is the header's four-digit year when a header is
   * found among the first 30 lines, and 2025 otherwise.
   */
  lemma {:induction false} LclYear(lines: seq<string>, k: nat)
    requires k < |LclTransactions(lines)|
    ensures var date := LclTransactions(lines)[k].date;
            date[6..] == if HeaderFrom(lines, 0).Some? then HeaderFrom(lines, 0).value.year else DefaultYear
  {
    var p := PeriodOf(HeaderFrom(lines, 0));
    var date := LclTransactions(lines)[k].date;
    assert DayMonthShape(date, "/" + p.year);
    assert date[5..] == "/" + p.year;
    assert date[6..] == date[5..][1..];
  }

  /** The loop's turn at i followed by the rest: a consumed next line is never read as a line of its own. */
  lemma {:induction false} ConsumedLineSkipped(tl: seq<string>, i: nat, period: Period)
    requires ValidPeriod(period) && i < |tl| && LclStep(tl, i, period).next == i + 2
    ensures RunSteps(StepsOf(tl, period), i) == [LclStep(tl, i, period).record.value] + RunSteps(StepsOf(tl, period), i + 2)
  {
    assert StepsOf(tl, period)[i] == LclStep(tl, i, period);
  }

  /** Pass 1: scan the first 30 lines for the header; stop at the first one the pattern matches. */
  method ScanHeader(lines: seq<string>) returns (period: Period)
    ensures period == PeriodOf(HeaderFrom(lines, 0))
  {
    var annee: Option<string> := None;
    var moisNum: Option<nat> := None;
    var limit := Min(HeaderScanLimit, |lines|);
    var idx := 0;
    while idx < limit
      invariant idx <= limit
      invariant annee.None? && moisNum.None?
      invariant HeaderFrom(lines, idx) == HeaderFrom(lines, 0)
    {
      var upper := Upper(lines[idx]);
      if Contains(upper, HeaderKeyword) {
        var m := SearchFrom(upper, 0, HeaderAt);
        if m.Some? {
          assert HeaderOfLine(lines[idx]) == Some(m.value.found);
          assert HeaderFrom(lines, idx) == Some(m.value.found);
          annee := Some(m.value.found.year);
          moisNum := MonthNumber(Upper(m.value.found.month));
          break;
        }
      }
      assert HeaderOfLine(lines[idx]).None?;
      assert HeaderFrom(lines, idx) == HeaderFrom(lines, idx + 1);
      idx := idx + 1;
    }
    // A found year has four digits, so only a missing one falls back to the default.
    var year := if annee.None? then DefaultYear else annee.value;
    period := Period(year, moisNum);
  }

  /** Pass 2: every header line moves the start; the first "TOTAUX" line after a start ends the scan. */
  method FindSection(lines: seq<string>) returns (section: Option<Section>)
    ensures section == SectionFrom(lines, 0, None)
  {
    var startIdx: Option<nat> := None;
    var endIdx := |lines|;
    var idx := 0;
    while idx < |lines|
      invariant idx <= |lines| && endIdx == |lines|
      invariant SectionFrom(lines, idx, startIdx) == SectionFrom(lines, 0, None)
    {
      var upper := Upper(lines[idx]);
      if Contains(upper, HeaderKeyword) {
        startIdx := Some(idx + 1);
      }
      if startIdx.Some? && Contains(upper, SectionEnd) {
        endIdx := idx;
        break;
      }
      idx := idx + 1;
    }
    section := if startIdx.None? then None else Some(Section(startIdx.value, endIdx));
  }

  /**
   * The body of pass 3's loop at index i: the record appended, if any, and the
   * index the loop moves on to (one further when the amount was read from the
   * next line).
   */
  method ReadTurn(tl: seq<string>, i: nat, period: Period) returns (record: Option<Transaction>, next: nat)
    requires i < |tl| && ValidPeriod(period)
    ensures Step(record, next) == LclStep(tl, i, period)
  {
    record := None;
    next := i + 1;
    var line := Strip(tl[i]);
    if line == [] {
      return;
    }
    if ContainsAny(line, LclSkipKeywords) {
      return;
    }
    var dateMatch := SearchFrom(line, 0, LclDateAt);
    if dateMatch.Some? {
      var dateFormat := LclDateText(dateMatch.value.found, period);
      var libelle := Strip(line);
      StrippedIsFixed(line);
      var amountMatch := SearchFrom(line, 0, TrailingAmountAt);
      if amountMatch.Some? {
        var montant := Debit(amountMatch.value.found);
        libelle := Strip(line[..amountMatch.value.start]);
        if |libelle| >= 3 {
          record := Some(Transaction(dateFormat, libelle, montant));
        }
      } else if i + 1 < |tl| {
        var nextLine := Strip(tl[i + 1]);
        var leading := LeadingAmount(nextLine);
        if leading.Some? {
          var montant := Debit(leading.value);
          if |libelle| >= 3 {
            record := Some(Transaction(dateFormat, libelle, montant));
            next := next + 1;
          }
        }
      }
    }
  }

  /**
   * Pass 3: the index-driven loop over the section lines, appending each
   * turn's record and counting them. `steps` names the turn at every index.
   */
  method ParseSection(tl: seq<string>, period: Period, ghost steps: seq<Step<Transaction>>) returns (txs: seq<Transaction>)
    requires ValidPeriod(period) && |steps| == |tl|
    requires forall j {:trigger LclStep(tl, j, period)} :: 0 <= j < |tl| ==> steps[j] == LclStep(tl, j, period)
    ensures txs == RunSteps(steps, 0)
  {
    txs := [];
    var count := 0;
    var i := 0;
    while i < |tl|
      invariant i <= |tl|
      invariant txs + RunSteps(steps, i) == RunSteps(steps, 0)
      invariant count == |txs|
      decreases |tl| - i
    {
      var record, next := ReadTurn(tl, i, period);
      assert steps[i] == Step(record, next);
      assert i < next;
      assert RunSteps(steps, i) == Image(record) + RunSteps(steps, next);
      ConcatAssoc(txs, Image(record), RunSteps(steps, next));
      if record.Some? {
        count := count + 1;
        txs := txs + [record.value];
      }
      assert txs + RunSteps(steps, next) == RunSteps(steps, 0);
      i := next;
    }
  }

  /** extract_lcl_transactions: the three passes in turn; no section means no transactions. */
  method ExtractLclTransactions(lines: seq<string>) returns (txs: seq<Transaction>)
    ensures txs == LclTransactions(lines)
  {
    var period := ScanHeader(lines);
    var section := FindSection(lines);
    if section.None? {
      return [];
    }
    var transactionLines := Slice(lines, section.value.start, section.value.end);
    txs := ParseSection(transactionLines, period, StepsOf(transactionLines, period));
  }
}

=== FILE: mistral_parser.dfy ===
/**
 * mistral_parser.py: the date normaliser, the sanitising of the model's
 * reply, the validation loop over the decoded records, and the summary of
 * extract_with_mistral_detailed. The Mistral chat call and json.loads are
 * parameters: the call is a function from the truncated statement text and
 * the bank hint to a reply, the decoder a partial function from text to the
 * decoded JSON array.
 */
module Mistral {
  import opened Wrappers
  import opened Text
  import opened Transactions

  // ------------------------------------------------------------ JSON values

  /** A decoded JSON value, as json.loads returns it. */
  datatype JsonValue =
    | JNull
    | JBool(b: bool)
    | JInt(i: int)
    | JFloat(f: real)
    | JString(s: string)
    | JArray(items: seq<JsonValue>)
    | JObject(fields: map<string, JsonValue>)

  // ------------------------------------------------------ _normalize_date

  /** `^\d{2}<sep>\d{2}<sep>\d{4}$`: DD, MM and YYYY separated by sep. */
  predicate SeparatedShape(s: string, sep: char) {
    && |s| == 10 && AllDigits(s[0..2]) && s[2] == sep && AllDigits(s[3..5]) && s[5] == sep
    && AllDigits(s[6..10])
  }

  /** `^\d{8}$`. */
  predicate EightDigits(s: string) {
    |s| == 8 && AllDigits(s)
  }

  predicate IsLeapYear(y: int) {
    y % 4 == 0 && (y % 100 != 0 || y % 400 == 0)
  }

  function DaysInMonth(month: int, year: int): int {
    if month == 2 then (if IsLeapYear(year) then 29 else 28)
    else if month == 4 || month == 6 || month == 9 || month == 11 then 30
    else 31
  }

  /** A day of the proleptic Gregorian calendar that datetime can represent. */
  predicate ValidCalendarDate(day: int, month: int, year: int) {
    year >= 1 && 1 <= month <= 12 && 1 <= day <= DaysInMonth(month, year)
  }

  /**
   * datetime.strptime(s, "%d/%m/%Y") on a string already of the form
   * DD/MM/YYYY: it succeeds exactly when the string names a real day.
   */
  predicate StrptimeAccepts(s: string)
    requires SeparatedShape(s, '/')
  {
    ValidCalendarDate(DigitsValue(s[0..2]), DigitsValue(s[3..5]), DigitsValue(s[6..10]))
  }

  /** A normalised date: DD/MM/YYYY naming a real day. */
  predicate NormalDate(s: string) {
    SeparatedShape(s, '/') && StrptimeAccepts(s)
  }

  /** The DDMMYYYY form rewritten as DD/MM/YYYY. */
  function SlashedEight(s: string): (r: string)
    requires EightDigits(s)
    ensures SeparatedShape(r, '/')
  {
    var r := s[0..2] + "/" + s[2..4] + "/" + s[4..8];
    assert r[0..2] == s[0..2] && r[3..5] == s[2..4] && r[6..10] == s[4..8];
    r
  }

  /** The DD-MM-YYYY form with every '-' replaced by '/'. */
  function SlashedDashes(s: string): (r: string)
    requires SeparatedShape(s, '-')
    ensures SeparatedShape(r, '/')
    ensures r == s[0..2] + "/" + s[3..5] + "/" + s[6..10]
  {
    var r := ReplaceAll(s, "-", "/");
    ReplaceCharPointwise(s, '-', '/');
    assert r == s[0..2] + "/" + s[3..5] + "/" + s[6..10];
    assert r[0..2] == s[0..2] && r[3..5] == s[3..5] && r[6..10] == s[6..10];
    r
  }

  /**
   * _normalize_date on a string: after stripping, DD/MM/YYYY is kept,
   * DDMMYYYY and DD-MM-YYYY are rewritten, each only if it names a real day;
   * a shape that matches but names no day gives None without trying the
   * next shape, and every other shape gives None.
   */
  function NormalizeDate(raw: string): (r: Option<string>)
    ensures r.Some? ==> NormalDate(r.value)
    ensures r.Some? ==> var s := Strip(raw);
              SeparatedShape(s, '/') || EightDigits(s) || SeparatedShape(s, '-')
  {
    var s := Strip(raw);
    if SeparatedShape(s, '/') then
      (if StrptimeAccepts(s) then Some(s) else None)
    else if EightDigits(s) then
      var n := SlashedEight(s);
      if StrptimeAccepts(n) then Some(n) else None
    else if SeparatedShape(s, '-') then
      var n := SlashedDashes(s);
      if StrptimeAccepts(n) then Some(n) else None
    else None
  }

  /** Surrounding whitespace never changes the outcome: the date is stripped first. */
  lemma {:induction false} NormalizeStripsFirst(raw: string)
    ensures NormalizeDate(raw) == NormalizeDate(Strip(raw))
  {
    StrippedIsFixed(Strip(raw));
  }

  /** Normalising a normalised date gives it back unchanged. */
  lemma {:induction false} NormalizeIdempotent(raw: string)
    requires NormalizeDate(raw).Some?
    ensures NormalizeDate(NormalizeDate(raw).value) == NormalizeDate(raw)
  {
    NormalDateKept(NormalizeDate(raw).value);
  }

  /** A date already in DD/MM/YYYY form comes back unchanged. */
  lemma {:induction false} NormalDateKept(d: string)
    requires NormalDate(d)
    ensures NormalizeDate(d) == Some(d)
  {
    assert IsDigit(d[0]) && IsDigit(d[9]) by {
      assert d[0] == d[0..2][0] && d[9] == d[6..10][3];
    }
    StrippedIsFixed(d);
  }

  /**
   * A DDMMYYYY string becomes s[0:2] + "/" + s[2:4] + "/" + s[4:8] when that
   * names a real day, and None otherwise.
   */
  lemma {:induction false} NormalizeEightDigits(s: string)
    requires EightDigits(s)
    ensures NormalizeDate(s) == if StrptimeAccepts(SlashedEight(s))
                                then Some(s[0..2] + "/" + s[2..4] + "/" + s[4..8]) else None
  {
    assert !IsSpace(s[0]) && !IsSpace(s[7]);
    StrippedIsFixed(s);
    assert !SeparatedShape(s, '/');
  }

  /**
   * A DD-MM-YYYY string has its dashes turned into slashes when that names
   * a real day, and gives None otherwise.
   */
  lemma {:induction false} NormalizeDashes(s: string)
    requires SeparatedShape(s, '-')
    ensures NormalizeDate(s) == if StrptimeAccepts(SlashedDashes(s))
                                then Some(s[0..2] + "/" + s[3..5] + "/" + s[6..10]) else None
  {
    assert IsDigit(s[0]) && IsDigit(s[9]) by {
      assert s[0] == s[0..2][0] && s[9] == s[6..10][3];
    }
    StrippedIsFixed(s);
    assert !SeparatedShape(s, '/');
    assert !EightDigits(s) by {
      assert !IsDigit(s[2]);
    }
  }

  /** A date of an accepted shape that names no real day is rejected. */
  lemma {:induction false} InvalidDayRejected(s: string)
    requires SeparatedShape(s, '/') && !StrptimeAccepts(s)
    ensures NormalizeDate(s) == None
  {
    assert IsDigit(s[0]) && IsDigit(s[9]) by {
      assert s[0] == s[0..2][0] && s[9] == s[6..10][3];
    }
    StrippedIsFixed(s);
  }

  /**
   * _normalize_date applied to any decoded value: it works on str() of the
   * value. str() of a float always shows '.', 'e', "inf" or "nan", and str()
   * of null, a boolean, a list or an object is never all digits, '/' and '-',
   * so only strings and integers can give a date.
   */
  function DateOfValue(v: JsonValue): (r: Option<string>)
    ensures r.Some? ==> NormalDate(r.value)
  {
    match v
    case JString(s) => NormalizeDate(s)
    case JInt(i) => NormalizeDate(IntToString(i))
    case _ => None
  }

  // ------------------------------------------------------------- float()

  /** 10 to the power e, for any integer e. */
  function RealPow10(e: int): (r: real)
    ensures r > 0.0
    decreases if e < 0 then -e else e
  {
    if e == 0 then 1.0
    else if e > 0 then 10.0 * RealPow10(e - 1)
    else RealPow10(e + 1) / 10.0
  }

  /** The decimal value of the digit strings before and after a point. */
  function DecimalValue(intPart: string, fracPart: string): (v: real)
    requires AllDigits(intPart) && AllDigits(fracPart)
    ensures v >= 0.0
  {
    DigitsValue(intPart) as real + DigitsValue(fracPart) as real / RealPow10(|fracPart|)
  }

  /** A float literal, read into its sign, its digits around the point and its exponent. */
  datatype FloatLiteral = FloatLiteral(
    negative: bool, intDigits: string, fracDigits: string, expNegative: bool, expDigits: string)

  predicate WellFormedLiteral(l: FloatLiteral) {
    && AllDigits(l.intDigits) && AllDigits(l.fracDigits) && AllDigits(l.expDigits)
    && |l.intDigits| + |l.fracDigits| >= 1
  }

  /** The number a literal denotes (exactly; the rounding to a double is not modelled). */
  function LiteralValue(l: FloatLiteral): (v: real)
    requires WellFormedLiteral(l)
    ensures !l.negative ==> v >= 0.0
  {
    var m := DecimalValue(l.intDigits, l.fracDigits);
    var signed := if l.negative then -m else m;
    var e := DigitsValue(l.expDigits);
    if l.expNegative then signed / RealPow10(e) else signed * RealPow10(e)
  }

  /** An optional '+' or '-' at index p: whether it is '-', and the index after it. */
  function SignAt(s: string, p: nat): (r: (bool, nat))
    ensures r.1 == p || (r.1 == p + 1 && p < |s| && (s[p] == '+' || s[p] == '-'))
    ensures r.0 <==> r.1 == p + 1 && s[p] == '-'
  {
    if p < |s| && (s[p] == '+' || s[p] == '-') then (s[p] == '-', p + 1) else (false, p)
  }

  /** What follows the mantissa: nothing, or 'e'/'E', a sign and digits up to the end. */
  function ExponentAt(s: string, e: nat): (r: Option<(bool, string)>)
    ensures r.Some? ==> AllDigits(r.value.1)
    ensures e >= |s| ==> r == Some((false, ""))
  {
    if e >= |s| then Some((false, ""))
    else if s[e] != 'e' && s[e] != 'E' then None
    else
      var (negative, ep) := SignAt(s, e + 1);
      var en := DigitRun(s, ep);
      if en == 0 || ep + en != |s| then None else Some((negative, s[ep..ep + en]))
  }

  /**
   * The syntax float() accepts once whitespace is stripped: an optional sign,
   * digits with an optional decimal point (at least one digit in all), and an
   * optional exponent, with nothing after.
   */
  function LiteralOf(s: string): (r: Option<FloatLiteral>)
    ensures r.Some? ==> WellFormedLiteral(r.value)
  {
    var (negative, p) := SignAt(s, 0);
    var n := DigitRun(s, p);
    var q := if p + n < |s| && s[p + n] == '.' then p + n + 1 else p + n;
    var f := DigitRun(s, q);
    if n + f == 0 then None
    else match ExponentAt(s, q + f)
      case None => None
      case Some((expNegative, expDigits)) =>
        Some(FloatLiteral(negative, s[p..p + n], s[q..q + f], expNegative, expDigits))
  }

  /** float() of a string; a ValueError is None. */
  function ParseFloat(raw: string): (r: Option<real>)
    ensures r.Some? <==> LiteralOf(Strip(raw)).Some?
  {
    match LiteralOf(Strip(raw))
    case None => None
    case Some(l) => Some(LiteralValue(l))
  }

  /** str() of an integer reads as a literal with its digits and no point or exponent. */
  lemma {:induction false} LiteralOfIntString(i: int)
    ensures LiteralOf(IntToString(i)) == Some(FloatLiteral(i < 0, NatToString(if i < 0 then -i else i), "", false, ""))
  {
    var s := IntToString(i);
    var digits := NatToString(if i < 0 then -i else i);
    var p := if i < 0 then 1 else 0;
    assert SignAt(s, 0) == (i < 0, p);
    assert s[p..] == digits;
    DigitRunOfDigits(s, p);
    assert s[p..p + |digits|] == digits;
    assert DigitRun(s, |s|) == 0;
  }

  /** float() reads back what str() writes for an integer. */
  lemma {:induction false} ParseFloatOfInt(i: int)
    ensures ParseFloat(IntToString(i)) == Some(i as real)
  {
    IntStringStripped(i);
    LiteralOfIntString(i);
    var n: nat := if i < 0 then -i else i;
    IntegerLiteralValue(i < 0, NatToString(n));
  }

  /** str() of an integer has no surrounding whitespace. */
  lemma {:induction false} IntStringStripped(i: int)
    ensures Strip(IntToString(i)) == IntToString(i)
  {
    var s := IntToString(i);
    assert IsDigit(s[|s| - 1]);
    StrippedIsFixed(s);
  }

  /** A literal without point or exponent denotes its digits' value. */
  lemma {:induction false} IntegerLiteralValue(negative: bool, digits: string)
    requires AllDigits(digits) && |digits| >= 1
    ensures LiteralValue(FloatLiteral(negative, digits, "", false, ""))
            == if negative then -(DigitsValue(digits) as real) else DigitsValue(digits) as real
  {
    assert DigitsValue("") == 0;
    assert DecimalValue(digits, "") == DigitsValue(digits) as real;
  }

  /** A run of digits up to the end of the string is read whole. */
  lemma {:induction false} DigitRunOfDigits(s: string, p: nat)
    requires p <= |s| && AllDigits(s[p..])
    ensures DigitRun(s, p) == |s| - p
    decreases |s| - p
  {
    if p < |s| {
      assert IsDigit(s[p..][0]);
      assert s[p + 1..] == s[p..][1..];
      DigitRunOfDigits(s, p + 1);
    }
  }

  /**
   * float() of a decoded value: numbers convert, booleans give 1.0 or 0.0,
   * strings are parsed, and null, lists and objects are a TypeError.
   */
  function FloatOf(v: JsonValue): (r: Option<real>)
    ensures v.JInt? ==> r == Some(v.i as real)
    ensures v.JNull? || v.JArray? || v.JObject? ==> r.None?
  {
    match v
    case JInt(i) => Some(i as real)
    case JFloat(f) => Some(f)
    case JBool(b) => Some(if b then 1.0 else 0.0)
    case JString(s) => ParseFloat(s)
    case _ => None
  }

  // ------------------------------------------------------ validation loop

  /**
   * One turn of the validation loop: a record needs all three keys, a date
   * that normalises, a montant float() accepts and a string libelle (strip()
   * of anything else raises). Anything but an object fails the key test or
   * the lookup and is rejected.
   */
  function ValidateItem(item: JsonValue): (r: Option<Transaction>)
    ensures r.Some? ==> NormalDate(r.value.date) && Stripped(r.value.libelle)
    ensures r.Some? <==> && item.JObject?
                         && "date" in item.fields && "libelle" in item.fields && "montant" in item.fields
                         && DateOfValue(item.fields["date"]).Some?
                         && FloatOf(item.fields["montant"]).Some?
                         && item.fields["libelle"].JString?
    ensures r.Some? ==> && r.value.date == DateOfValue(item.fields["date"]).value
                        && r.value.libelle == Strip(item.fields["libelle"].s)
                        && r.value.montant == FloatOf(item.fields["montant"]).value
  {
    match item
    case JObject(m) =>
      if !("date" in m && "libelle" in m && "montant" in m) then None
      else
        (match (DateOfValue(m["date"]), FloatOf(m["montant"]), m["libelle"])
         case (Some(d), Some(montant), JString(l)) => Some(Transaction(d, Strip(l), montant))
         case _ => None)
    case _ => None
  }

  /**
   * The validation loop of extract_with_mistral: valid records are appended
   * in order and every other one bumps the rejection counter.
   */
  method ValidateRecords(raw: seq<JsonValue>) returns (txs: seq<Transaction>, rejected: nat)
    ensures txs == FilterMap(raw, ValidateItem)
    ensures rejected + |txs| == |raw|
  {
    txs := [];
    rejected := 0;
    for k := 0 to |raw|
      invariant txs == FilterMap(raw[..k], ValidateItem)
      invariant rejected + |txs| == k
    {
      FilterMapSnoc(raw, k, ValidateItem);
      var t := raw[k];
      if !t.JObject? || !("date" in t.fields && "libelle" in t.fields && "montant" in t.fields) {
        assert ValidateItem(t).None?;
        rejected := rejected + 1;
        continue;
      }
      var dateNormalized := DateOfValue(t.fields["date"]);
      if dateNormalized.None? {
        assert ValidateItem(t).None?;
        rejected := rejected + 1;
        continue;
      }
      var montant := FloatOf(t.fields["montant"]);
      if montant.None? || !t.fields["libelle"].JString? {
        assert ValidateItem(t).None?;
        rejected := rejected + 1;
        continue;
      }
      assert ValidateItem(t) == Some(Transaction(dateNormalized.value, Strip(t.fields["libelle"].s), montant.value));
      txs := txs + [Transaction(dateNormalized.value, Strip(t.fields["libelle"].s), montant.value)];
    }
    assert raw[..|raw|] == raw;
  }

  /** Every kept record carries a normalised date and a stripped libellé. */
  lemma {:induction false} ValidatedRecords(raw: seq<JsonValue>, k: nat)
    requires k < |FilterMap(raw, ValidateItem)|
    ensures NormalDate(FilterMap(raw, ValidateItem)[k].date)
    ensures Stripped(FilterMap(raw, ValidateItem)[k].libelle)
  {
    FilterMapOrigin(raw, ValidateItem, k);
  }

  // --------------------------------------------------------- the reply

  /** The statement text sent to the model: at most its first 8000 characters. */
  function PromptText(text: string): (r: string)
    ensures |text| <= 8000 ==> r == text
    ensures |text| > 8000 ==> r == text[..8000]
  {
    if |text| > 8000 then text[..8000] else text
  }

  /** The reply with the "```json" and "```" fences removed, then stripped. */
  function CleanReply(reply: string): (r: string)
    ensures Stripped(r)
    ensures !Contains(reply, "```") ==> r == Strip(reply)
  {
    var r := Strip(ReplaceAll(ReplaceAll(reply, "```json", ""), "```", ""));
    if !Contains(reply, "```") then
      assert !Contains(reply, "```json") by {
        if Contains(reply, "```json") { FenceInJsonFence(reply); }
      }
      ReplaceAllAbsent(reply, "```json", "");
      ReplaceAllAbsent(reply, "```", "");
      r
    else r
  }

  /** A reply fenced as "```json" ... "```" around backtick-free text cleans to that text, stripped. */
  lemma {:induction false} CleanFencedReply(body: string)
    requires forall k :: 0 <= k < |body| ==> body[k] != '`'
    ensures CleanReply("```json" + body + "```") == Strip(body)
  {
    var reply := "```json" + body + "```";
    assert OccursAt(reply, "```", 0);
    assert reply[..7] == "```json";
    assert reply[7..] == body + "```";
    assert !Contains(body + "```", "```json") by {
      forall i: nat | i + 7 <= |body| + 3 ensures !OccursAt(body + "```", "```json", i) {
        assert (body + "```")[i] == body[i];
      }
    }
    ReplaceAllAbsent(body + "```", "```json", "");
    assert ReplaceAll(reply, "```json", "") == body + "```";
    DropClosingFence(body);
  }

  /** Removing "```" from backtick-free text followed by "```" leaves the text. */
  lemma {:induction false} DropClosingFence(body: string)
    requires forall k :: 0 <= k < |body| ==> body[k] != '`'
    ensures ReplaceAll(body + "```", "```", "") == body
    decreases |body|
  {
    var s := body + "```";
    if body == [] {
      assert s[..3] == "```" && s[3..] == [];
    } else {
      assert s[..3][0] == body[0];
      assert s[1..] == body[1..] + "```";
      DropClosingFence(body[1..]);
      assert [body[0]] + body[1..] == body;
    }
  }

  /** A string holding "```json" holds "```". */
  lemma {:induction false} FenceInJsonFence(s: string)
    requires Contains(s, "```json")
    ensures Contains(s, "```")
  {
    var i: nat :| i <= |s| && OccursAt(s, "```json", i);
    assert s[i..i + 3] == s[i..i + 7][..3];
    assert OccursAt(s, "```", i);
  }

  /** The index of the first occurrence of c at or after p, if any. */
  function FirstIndex(s: string, c: char, p: nat): (r: Option<nat>)
    ensures r.Some? ==> p <= r.value < |s| && s[r.value] == c
    ensures r.Some? ==> forall k :: p <= k < r.value ==> s[k] != c
    ensures r.None? ==> forall k :: p <= k < |s| ==> s[k] != c
    decreases |s| - p
  {
    if p >= |s| then None else if s[p] == c then Some(p) else FirstIndex(s, c, p + 1)
  }

  /** The index of the last occurrence of c before index n, if any. */
  function LastIndex(s: string, c: char, n: nat): (r: Option<nat>)
    requires n <= |s|
    ensures r.Some? ==> r.value < n && s[r.value] == c
    ensures r.Some? ==> forall k :: r.value < k < n ==> s[k] != c
    ensures r.None? ==> forall k :: 0 <= k < n ==> s[k] != c
  {
    if n == 0 then None else if s[n - 1] == c then Some(n - 1) else LastIndex(s, c, n - 1)
  }

  /**
   * re.search(r'\[.*\]', s, re.DOTALL).group(0): the leftmost '[' that some
   * later ']' closes, and the greedy `.*` runs to the last ']'. If the first
   * '[' has no ']' after it, no later '[' has one either.
   */
  function BracketSpan(s: string): (r: Option<string>)
    ensures r.Some? ==> |r.value| >= 2 && r.value[0] == '[' && r.value[|r.value| - 1] == ']'
    ensures r.Some? ==> exists i, e :: 0 <= i && i + 1 < e <= |s| && r.value == s[i..e]
                          && (forall k :: 0 <= k < i ==> s[k] != '[')
                          && (forall k :: e <= k < |s| ==> s[k] != ']')
    ensures r.None? <==> forall i, j :: 0 <= i < j < |s| && s[i] == '[' ==> s[j] != ']'
  {
    match (FirstIndex(s, '[', 0), LastIndex(s, ']', |s|))
    case (Some(i), Some(j)) =>
      if i < j then
        assert (forall k :: 0 <= k < i ==> s[k] != '[') && (forall k :: j < k < |s| ==> s[k] != ']');
        Some(s[i..j + 1])
      else
        assert forall a, b :: 0 <= a < b < |s| && s[a] == '[' ==> s[b] != ']' by {
          forall a, b | 0 <= a < b < |s| && s[a] == '[' ensures s[b] != ']' {
            assert i <= a;
          }
        }
        None
    case _ => None
  }

  // ----------------------------------------------------- extract_with_mistral

  /** What the chat call gives back: the message content, or a failure (any exception). */
  datatype LlmReply = Reply(content: string) | CallFailed

  const MissingKeyMessage := "Cl\U{E9} API Mistral manquante"

  /**
   * The records read from the model's answer: the bracketed array of the
   * cleaned answer, decoded and validated item by item; no array or
   * undecodable JSON gives [].
   */
  function RecordsOfReply(content: string, decode: string -> Option<seq<JsonValue>>): (txs: seq<Transaction>)
    ensures forall t :: t in txs ==> NormalDate(t.date) && Stripped(t.libelle)
  {
    match BracketSpan(CleanReply(Strip(content)))
    case None => []
    case Some(span) =>
      match decode(span)
      case None => []
      case Some(raw) => ValidRecords(raw)
  }

  /** The records of a decoded array that pass validation, each with a normalised date and a stripped label. */
  function ValidRecords(raw: seq<JsonValue>): (txs: seq<Transaction>)
    ensures forall t :: t in txs ==> NormalDate(t.date) && Stripped(t.libelle)
  {
    var txs := FilterMap(raw, ValidateItem);
    assert forall t :: t in txs ==> NormalDate(t.date) && Stripped(t.libelle) by {
      forall t | t in txs ensures NormalDate(t.date) && Stripped(t.libelle) {
        var k :| 0 <= k < |txs| && txs[k] == t;
        ValidatedRecords(raw, k);
      }
    }
    txs
  }

  /**
   * extract_with_mistral once the prompt is built: without an API key it
   * raises; every failure after that (a failed call, no bracketed array,
   * undecodable JSON) gives [].
   */
  function MistralFromPrompt(apiKey: Option<string>, prompt: string, bankType: Option<string>,
                             llm: (string, Option<string>) -> LlmReply,
                             decode: string -> Option<seq<JsonValue>>): (r: Result<seq<Transaction>, string>)
    ensures r.Err? <==> apiKey.None? || apiKey.value == ""
    ensures r.Err? ==> r.error == MissingKeyMessage
    ensures r.Ok? && llm(prompt, bankType).CallFailed? ==> r.value == []
    ensures r.Ok? ==> forall t :: t in r.value ==> NormalDate(t.date) && Stripped(t.libelle)
  {
    if apiKey.None? || apiKey.value == "" then Err(MissingKeyMessage)
    else match llm(prompt, bankType)
      case CallFailed => Ok([])
      case Reply(content) => Ok(RecordsOfReply(content, decode))
  }

  /** extract_with_mistral: the model only ever sees the first 8000 characters of the statement. */
  function ExtractWithMistral(apiKey: Option<string>, text: string, bankType: Option<string>,
                              llm: (string, Option<string>) -> LlmReply,
                              decode: string -> Option<seq<JsonValue>>): (r: Result<seq<Transaction>, string>)
    ensures r.Err? <==> apiKey.None? || apiKey.value == ""
  {
    MistralFromPrompt(apiKey, PromptText(text), bankType, llm, decode)
  }

  /** Nothing after the first 8000 characters of the statement affects the result. */
  lemma {:induction false} OnlyPromptTextMatters(apiKey: Option<string>, t1: string, t2: string, bankType: Option<string>,
                              llm: (string, Option<string>) -> LlmReply, decode: string -> Option<seq<JsonValue>>)
    requires |t1| >= 8000 && |t2| >= 8000 && t1[..8000] == t2[..8000]
    ensures ExtractWithMistral(apiKey, t1, bankType, llm, decode) == ExtractWithMistral(apiKey, t2, bankType, llm, decode)
  {
    assert PromptText(t1) == t1[..8000] by {
      assert |t1| == 8000 ==> t1 == t1[..8000];
    }
    assert PromptText(t2) == t2[..8000] by {
      assert |t2| == 8000 ==> t2 == t2[..8000];
    }
  }

  /** The result of extract_with_mistral_detailed. */
  datatype Summary = Summary(
    transactions: seq<Transaction>,
    count: nat,
    extractionMethod: string,
    bankType: string,
    success: bool,
    textLength: nat,
    textPreview: Option<string>)

  /**
   * The summary extract_with_mistral_detailed builds around the transactions:
   * their count, a success flag, the fixed method name, the bank type or
   * "unknown", the text length and, outside debug mode, the first 500
   * characters of the text.
   */
  function MistralSummary(txs: seq<Transaction>, text: string, bankType: Option<string>, debug: bool): (r: Summary)
    ensures r.transactions == txs && r.count == |txs|
    ensures r.success <==> |txs| > 0
    ensures r.extractionMethod == "mistral-ai"
    ensures bankType.None? || bankType.value == "" ==> r.bankType == "unknown"
    ensures bankType.Some? && bankType.value != "" ==> r.bankType == bankType.value
    ensures r.textLength == |text|
    ensures r.textPreview.Some? <==> !debug
    ensures !debug ==> |r.textPreview.value| == Min(500, |text|) && r.textPreview.value == text[..|r.textPreview.value|]
  {
    var preview := if !debug then Some(Take(text, 500)) else None;
    Summary(txs, |txs|, "mistral-ai",
            if bankType.None? || bankType.value == "" then "unknown" else bankType.value,
            |txs| > 0, |text|, preview)
  }

  /** extract_with_mistral_detailed: the summary of extract_with_mistral's transactions; a missing key still raises. */
  function ExtractWithMistralDetailed(apiKey: Option<string>, text: string, bankType: Option<string>, debug: bool,
                                      llm: (string, Option<string>) -> LlmReply,
                                      decode: string -> Option<seq<JsonValue>>): (r: Result<Summary, string>)
    ensures r.Err? <==> apiKey.None? || apiKey.value == ""
    ensures r.Ok? ==> r.value == MistralSummary(ExtractWithMistral(apiKey, text, bankType, llm, decode).value, text, bankType, debug)
  {
    match ExtractWithMistral(apiKey, text, bankType, llm, decode)
    case Err(e) => Err(e)
    case Ok(txs) => Ok(MistralSummary(txs, text, bankType, debug))
  }
}

=== FILE: parsers.dfy ===
/**
 * The regex statement parsers of parsers.py: the bank classifier and the
 * Crédit Agricole and Banque Populaire line parsers, with the amount and date
 * patterns they share.
 *
 * Every regular expression is modelled by a matcher `...At(s, p)` that says
 * what the pattern matches when tried at index p, and `Text.SearchFrom`
 * supplies re.search's leftmost choice. Each matcher's comment explains why
 * Python's backtracking reduces to the test written there.
 */
module Parsers {
  import opened Wrappers
  import opened Text
  import opened Transactions

  // ---------------------------------------------------------------- detection

  /** The bank codes detect_bank_format can return. */
  datatype BankCode = CA | BP | LCL | SG | BNP | UNKNOWN

  /** The keywords detect_bank_format tests, bank by bank, in the order it tests them. */
  const BankTable: seq<(BankCode, seq<string>)> := [
    (CA, ["CREDIT AGRICOLE"]),
    (BP, ["BANQUE POPULAIRE"]),
    (LCL, ["CREDIT LYONNAIS", "LCL"]),
    (SG, ["SOCIETE GENERALE", "SOCI\U{C9}T\U{C9} G\U{C9}N\U{C9}RALE"]),
    (BNP, ["BNP"])
  ]

  /** Every keyword of the table, in table order. */
  const AllBankKeywords: seq<string> := [
    "CREDIT AGRICOLE", "BANQUE POPULAIRE", "CREDIT LYONNAIS", "LCL",
    "SOCIETE GENERALE", "SOCI\U{C9}T\U{C9} G\U{C9}N\U{C9}RALE", "BNP"
  ]

  /**
   * detect_bank_format: the first bank of the table with a keyword in the
   * upper-cased text, else UNKNOWN.
   */
  function DetectBankFormat(text: string): (b: BankCode)
    ensures Contains(Upper(text), "CREDIT AGRICOLE") ==> b == CA
    ensures b == UNKNOWN <==> !ContainsAny(Upper(text), AllBankKeywords)
  {
    var u := Upper(text);
    BankKeywordCases(u);
    if Contains(u, "CREDIT AGRICOLE") then CA
    else if Contains(u, "BANQUE POPULAIRE") then BP
    else if Contains(u, "CREDIT LYONNAIS") || Contains(u, "LCL") then LCL
    else if Contains(u, "SOCIETE GENERALE") || Contains(u, "SOCI\U{C9}T\U{C9} G\U{C9}N\U{C9}RALE") then SG
    else if Contains(u, "BNP") then BNP
    else UNKNOWN
  }

  /** Some bank keyword occurs exactly when one of the seven named ones does. */
  lemma {:induction false} BankKeywordCases(u: string)
    ensures ContainsAny(u, AllBankKeywords) <==>
      || Contains(u, "CREDIT AGRICOLE") || Contains(u, "BANQUE POPULAIRE")
      || Contains(u, "CREDIT LYONNAIS") || Contains(u, "LCL") || Contains(u, "SOCIETE GENERALE")
      || Contains(u, "SOCI\U{C9}T\U{C9} G\U{C9}N\U{C9}RALE") || Contains(u, "BNP")
  {
    var keys := AllBankKeywords;
    if ContainsAny(u, keys) {
      var k :| 0 <= k < |keys| && Contains(u, keys[k]);
      assert k in {0, 1, 2, 3, 4, 5, 6};
    }
    if Contains(u, "CREDIT AGRICOLE") { assert Contains(u, keys[0]); }
    if Contains(u, "BANQUE POPULAIRE") { assert Contains(u, keys[1]); }
    if Contains(u, "CREDIT LYONNAIS") { assert Contains(u, keys[2]); }
    if Contains(u, "LCL") { assert Contains(u, keys[3]); }
    if Contains(u, "SOCIETE GENERALE") { assert Contains(u, keys[4]); }
    if Contains(u, "SOCI\U{C9}T\U{C9} G\U{C9}N\U{C9}RALE") { assert Contains(u, keys[5]); }
    if Contains(u, "BNP") { assert Contains(u, keys[6]); }
  }

  /** A priority-ordered keyword classifier: the first row with a keyword in s. */
  function FirstMatch(table: seq<(BankCode, seq<string>)>, s: string): (b: BankCode)
    ensures b == UNKNOWN || exists k :: 0 <= k < |table| && table[k].0 == b
  {
    if table == [] then UNKNOWN
    else if ContainsAny(s, table[0].1) then table[0].0
    else FirstMatch(table[1..], s)
  }

  /** The if/elif chain is exactly the first-match rule over the keyword table. */
  lemma {:induction false} DetectIsFirstMatch(text: string)
    ensures DetectBankFormat(text) == FirstMatch(BankTable, Upper(text))
  {
    var u := Upper(text);
    var t := BankTable;
    ContainsAnyOne(u, "CREDIT AGRICOLE");
    ContainsAnyOne(u, "BANQUE POPULAIRE");
    ContainsAnyTwo(u, "CREDIT LYONNAIS", "LCL");
    ContainsAnyTwo(u, "SOCIETE GENERALE", "SOCI\U{C9}T\U{C9} G\U{C9}N\U{C9}RALE");
    ContainsAnyOne(u, "BNP");
    assert t[1..] == BankTable[1..];
    assert FirstMatch(t, u) == if ContainsAny(u, t[0].1) then CA else FirstMatch(t[1..], u);
    assert FirstMatch(t[1..], u) == if ContainsAny(u, t[1].1) then BP else FirstMatch(t[2..], u);
    assert FirstMatch(t[2..], u) == if ContainsAny(u, t[2].1) then LCL else FirstMatch(t[3..], u);
    assert FirstMatch(t[3..], u) == if ContainsAny(u, t[3].1) then SG else FirstMatch(t[4..], u);
    assert FirstMatch(t[4..], u) == if ContainsAny(u, t[4].1) then BNP else FirstMatch(t[5..], u);
    assert t[5..] == [];
  }

  // ------------------------------------------------------------------ amounts

  /** What an amount pattern matched: the integer digits, the two decimals, and where it ends. */
  datatype AmountMatch = AmountMatch(units: string, cents: string, end: nat)

  predicate WellFormedAmount(m: AmountMatch) {
    |m.units| >= 1 && AllDigits(m.units) && |m.cents| == 2 && AllDigits(m.cents)
  }

  /**
   * `(\d+)[seps](\d{2})` tried at q. The digit run is followed by a separator,
   * which is not a digit, so the greedy `\d+` can only succeed with the whole
   * run; giving digits back leaves a digit where the separator is needed.
   */
  function DecimalAt(s: string, q: nat, seps: set<char>): (r: Option<AmountMatch>)
    ensures r.Some? ==> WellFormedAmount(r.value) && r.value.end == q + |r.value.units| + 3 <= |s|
    ensures r.Some? ==> s[q..r.value.end] == r.value.units + [s[q + |r.value.units|]] + r.value.cents
    ensures r.Some? ==> s[q + |r.value.units|] in seps
  {
    var n := DigitRun(s, q);
    if n >= 1 && q + n + 3 <= |s| && s[q + n] in seps && IsDigit(s[q + n + 1]) && IsDigit(s[q + n + 2])
    then Some(AmountMatch(s[q..q + n], s[q + n + 1..q + n + 3], q + n + 3))
    else None
  }

  /** The integer part of an amount match, as int() of the digits before the comma reads it. */
  function UnitsValue(m: AmountMatch): nat
    requires WellFormedAmount(m)
  {
    DigitsValue(m.units)
  }

  /**
   * `-float(units)`: the montant CA and BP records carry, which keeps only the
   * integer digits of the match.
   */
  function WholeDebit(m: AmountMatch): (v: real)
    requires WellFormedAmount(m)
    ensures v <= 0.0 && Integral(v)
  {
    (-(UnitsValue(m) as int)) as real
  }

  // ----------------------------------------------------------- Crédit Agricole

  const CaSkipKeywords: seq<string> := ["TOTAL", "Date", "Montant", "Commerce", "Page"]

  /** What `(\d{1,2}\.\d{2})` matched: the day digits, the month digits, and the end. */
  datatype DayMonth = DayMonth(day: string, month: string, end: nat)

  /**
   * `\d{1,2}\.\d{2}` tried at p. The greedy `\d{1,2}` first takes two digits;
   * if that fails it takes one, which can only succeed when the second
   * character is the dot itself.
   */
  function CaDateAt(s: string, p: nat): (r: Option<DayMonth>)
    ensures r.Some? ==> ValidDayMonth(r.value) && p < r.value.end <= |s|
    ensures r.Some? ==> s[p..r.value.end] == r.value.day + "." + r.value.month
  {
    if p + 5 <= |s| && IsDigit(s[p]) && IsDigit(s[p + 1]) && s[p + 2] == '.'
       && IsDigit(s[p + 3]) && IsDigit(s[p + 4])
    then
      var d := DayMonth(s[p..p + 2], s[p + 3..p + 5], p + 5);
      assert d.day == [s[p], s[p + 1]] && d.month == [s[p + 3], s[p + 4]];
      assert s[p..p + 5] == d.day + "." + d.month;
      Some(d)
    else if p + 4 <= |s| && IsDigit(s[p]) && s[p + 1] == '.' && IsDigit(s[p + 2]) && IsDigit(s[p + 3])
    then
      var d := DayMonth(s[p..p + 1], s[p + 2..p + 4], p + 4);
      assert d.day == [s[p]] && d.month == [s[p + 2], s[p + 3]];
      assert s[p..p + 4] == d.day + "." + d.month;
      Some(d)
    else None
  }

  /**
   * `-?(\d{1,5}),(\d{2})` tried at p. The optional minus is taken when present
   * (without it a digit would be needed where the minus stands). Since a comma
   * follows the digits, `\d{1,5}` succeeds only on a whole run of one to five
   * digits.
   */
  function CaAmountAt(s: string, p: nat): (r: Option<AmountMatch>)
    ensures r.Some? ==> WellFormedAmount(r.value) && |r.value.units| <= 5 && p < r.value.end <= |s|
  {
    var q := if p < |s| && s[p] == '-' then p + 1 else p;
    match DecimalAt(s, q, {','})
    case Some(m) => if |m.units| <= 5 then Some(m) else None
    case None => None
  }

  /** A date shape `<day>/MM<suffix>` whose day has one or two digits and whose month has two. */
  predicate DayMonthShape(date: string, suffix: string) {
    var n := |date| - 3 - |suffix|;
    && (n == 1 || n == 2)
    && AllDigits(date[..n]) && date[n] == '/' && AllDigits(date[n + 1..n + 3]) && date[n + 3..] == suffix
  }

  /** Joining a day, a month and a suffix gives a date of that shape. */
  lemma {:induction false} DayMonthShapeOf(day: string, month: string, suffix: string)
    requires 1 <= |day| <= 2 && AllDigits(day) && |month| == 2 && AllDigits(month)
    ensures DayMonthShape(day + "/" + month + suffix, suffix)
  {
    var date := day + "/" + month + suffix;
    var n := |day|;
    assert date[..n] == day;
    assert date[n + 1..n + 3] == month;
    assert date[n + 3..] == suffix;
  }

  predicate ValidDayMonth(d: DayMonth) {
    1 <= |d.day| <= 2 && AllDigits(d.day) && |d.month| == 2 && AllDigits(d.month)
  }

  /** A Crédit Agricole record: JJ/MM/2025, a non-empty stripped label, a whole non-positive amount above -100000. */
  predicate CaRecord(t: Transaction) {
    && DayMonthShape(t.date, "/2025")
    && t.libelle != [] && Stripped(t.libelle)
    && -100000.0 < t.montant <= 0.0 && Integral(t.montant)
  }

  /** The record built from a date match, a label and an amount match. */
  function CaRecordOf(d: DayMonth, middle: string, a: AmountMatch): (t: Transaction)
    requires ValidDayMonth(d) && middle != [] && Stripped(middle)
    requires WellFormedAmount(a) && |a.units| <= 5
    ensures CaRecord(t)
    ensures t.libelle == middle && t.montant == WholeDebit(a)
  {
    var date := d.day + "/" + d.month + "/2025";
    DayMonthShapeOf(d.day, d.month, "/2025");
    FiveDigitsBound(a.units);
    Transaction(date, middle, WholeDebit(a))
  }

  /**
   * One iteration of extract_ca_transactions' loop: the record the line
   * gives, if any.
   */
  function CaLine(line: string): (r: Option<Transaction>)
    ensures ContainsAny(line, CaSkipKeywords) ==> r.None?
    ensures r.Some? ==> CaRecord(r.value)
  {
    if ContainsAny(line, CaSkipKeywords) then None
    else
      var date := SearchFrom(line, 0, CaDateAt);
      var amount := SearchFrom(line, 0, CaAmountAt);
      if date.None? || amount.None? then None
      else
        var middle := Strip(Slice(line, date.value.found.end, amount.value.start));
        if middle == [] then None
        else Some(CaRecordOf(date.value.found, middle, amount.value.found))
  }

  /**
   * The montant of a Crédit Agricole record is minus the integer digits of
   * the first amount match of the line: the cents, and any minus sign before
   * the digits, are dropped.
   */
  lemma {:induction false} CaAmountIsUnits(line: string)
    requires CaLine(line).Some?
    ensures var a := SearchFrom(line, 0, CaAmountAt);
            && a.Some? && CaAmountAt(line, a.value.start) == Some(a.value.found)
            && (forall q :: 0 <= q < a.value.start ==> CaAmountAt(line, q).None?)
            && CaLine(line).value.montant == WholeDebit(a.value.found)
  {
    CaLineFields(line);
  }

  /**
   * When a line gives a Crédit Agricole record, and what the record holds:
   * the line must be free of skip keywords, hold a date and an amount, and
   * leave a non-blank label between the end of the first date match and the
   * start of the first amount match. The date is the matched day and month
   * with the year 2025, the label is that stripped text and the amount comes
   * from the amount match.
   */
  lemma {:induction false} CaLineFields(line: string)
    ensures var d := SearchFrom(line, 0, CaDateAt);
            var a := SearchFrom(line, 0, CaAmountAt);
            && (CaLine(line).Some? <==>
                  && !ContainsAny(line, CaSkipKeywords) && d.Some? && a.Some?
                  && Strip(Slice(line, d.value.found.end, a.value.start)) != [])
            && (CaLine(line).Some? ==>
                  && d.Some? && a.Some?
                  && CaLine(line).value.date == d.value.found.day + "/" + d.value.found.month + "/2025"
                  && CaLine(line).value.libelle == Strip(Slice(line, d.value.found.end, a.value.start))
                  && CaLine(line).value.montant == WholeDebit(a.value.found))
  {
  }

  /** At most five decimal digits denote a number below 100000. */
  lemma {:induction false} FiveDigitsBound(s: string)
    requires AllDigits(s) && |s| <= 5
    ensures DigitsValue(s) < 100000
  {
    DigitsBound(s);
    Pow10Monotone(|s|, 5);
  }

  /** n decimal digits denote a number below 10^n. */
  lemma {:induction false} DigitsBound(s: string)
    requires AllDigits(s)
    ensures DigitsValue(s) < Pow10(|s|)
  {
    if s != [] {
      DigitsBound(s[..|s| - 1]);
    }
  }

  lemma {:induction false} Pow10Monotone(a: nat, b: nat)
    requires a <= b
    ensures Pow10(a) <= Pow10(b)
  {
    if a < b {
      Pow10Monotone(a, b - 1);
    }
  }

  function Pow10(n: nat): (r: nat)
    ensures r >= 1
  {
    if n == 0 then 1 else 10 * Pow10(n - 1)
  }

  /** extract_ca_transactions: the loop appends each line's record, in order. */
  method ExtractCaTransactions(lines: seq<string>) returns (txs: seq<Transaction>)
    ensures txs == FilterMap(lines, CaLine)
  {
    txs := [];
    for k := 0 to |lines|
      invariant txs == FilterMap(lines[..k], CaLine)
    {
      var line := lines[k];
      FilterMapSnoc(lines, k, CaLine);
      if ContainsAny(line, CaSkipKeywords) {
        assert CaLine(line).None?;
        continue;
      }
      var dateMatch := SearchFrom(line, 0, CaDateAt);
      var amountMatch := SearchFrom(line, 0, CaAmountAt);
      if dateMatch.Some? && amountMatch.Some? {
        var middle := Strip(Slice(line, dateMatch.value.found.end, amountMatch.value.start));
        if middle == [] {
          assert CaLine(line).None?;
          continue;
        }
        assert CaLine(line) == Some(CaRecordOf(dateMatch.value.found, middle, amountMatch.value.found));
        txs := txs + [CaRecordOf(dateMatch.value.found, middle, amountMatch.value.found)];
      } else {
        assert CaLine(line).None?;
      }
    }
    assert lines[..|lines|] == lines;
  }

  /** Every Crédit Agricole record is well formed. */
  lemma {:induction false} CaRecordsWellFormed(lines: seq<string>, k: nat)
    requires k < |FilterMap(lines, CaLine)|
    ensures CaRecord(FilterMap(lines, CaLine)[k])
  {
    FilterMapOrigin(lines, CaLine, k);
  }

  /** A line holding a skip keyword contributes nothing, wherever it stands. */
  lemma {:induction false} CaSkipLineIgnored(before: seq<string>, line: string, after: seq<string>)
    requires ContainsAny(line, CaSkipKeywords)
    ensures FilterMap(before + [line] + after, CaLine) == FilterMap(before, CaLine) + FilterMap(after, CaLine)
  {
    DroppedElement(before, line, after, CaLine);
  }

  // --------------------------------------------------------- Banque Populaire

  const BpSkipKeywords: seq<string> := ["DATE", "NOM", "MONTANT", "Page", "TOTAL"]

  /** What `(\d{1,2})(\d{2})(\d{2})` matched at the start: day, month, two-digit year, end. */
  datatype DayMonthYear = DayMonthYear(day: string, month: string, year: string, end: nat)

  /**
   * re.match of `(\d{1,2})(\d{2})(\d{2})`: with six or more leading digits the
   * greedy day takes two; with exactly five it gives one back; fewer fail.
   */
  function BpDate(s: string): (r: Option<DayMonthYear>)
    ensures r.Some? ==> ValidDayMonthYear(r.value)
    ensures r.Some? ==> r.value.end == |r.value.day| + 4 <= |s|
    ensures r.Some? ==> s[..r.value.end] == r.value.day + r.value.month + r.value.year
    ensures r.Some? <==> DigitRun(s, 0) >= 5
  {
    var n := DigitRun(s, 0);
    if n >= 6 then Some(DayMonthYear(s[0..2], s[2..4], s[4..6], 6))
    else if n == 5 then Some(DayMonthYear(s[0..1], s[1..3], s[3..5], 5))
    else None
  }

  /** `(\d+),(\d{2})` tried at p. */
  function BpAmountAt(s: string, p: nat): (r: Option<AmountMatch>)
    ensures r.Some? ==> WellFormedAmount(r.value) && p < r.value.end <= |s|
  {
    DecimalAt(s, p, {','})
  }

  predicate ValidDayMonthYear(d: DayMonthYear) {
    && 1 <= |d.day| <= 2 && AllDigits(d.day) && |d.month| == 2 && AllDigits(d.month)
    && |d.year| == 2 && AllDigits(d.year)
  }

  /** A Banque Populaire record: J/MM/20YY or JJ/MM/20YY, a stripped label, a whole non-positive amount. */
  predicate BpRecord(t: Transaction) {
    && |t.date| >= 5
    && DayMonthShape(t.date, t.date[|t.date| - 5..])
    && t.date[|t.date| - 5..|t.date| - 2] == "/20" && AllDigits(t.date[|t.date| - 2..])
    && Stripped(t.libelle)
    && t.montant <= 0.0 && Integral(t.montant)
  }

  /** The record built from a date match, a label and an amount match. */
  function BpRecordOf(d: DayMonthYear, middle: string, a: AmountMatch): (t: Transaction)
    requires ValidDayMonthYear(d) && Stripped(middle) && WellFormedAmount(a)
    ensures BpRecord(t)
    ensures t.libelle == middle && t.montant == WholeDebit(a)
  {
    BpDateShape(d);
    Transaction(BpDateText(d), middle, WholeDebit(a))
  }

  /** The date of a Banque Populaire record: the day, the month and the year completed with "20". */
  function BpDateText(d: DayMonthYear): string {
    d.day + "/" + d.month + "/20" + d.year
  }

  /** The completed date has the record's date shape. */
  lemma {:induction false} BpDateShape(d: DayMonthYear)
    requires ValidDayMonthYear(d)
    ensures var date := BpDateText(d);
            && |date| >= 5
            && DayMonthShape(date, date[|date| - 5..])
            && date[|date| - 5..|date| - 2] == "/20" && AllDigits(date[|date| - 2..])
  {
    var suffix := "/20" + d.year;
    var head := d.day + "/" + d.month;
    var date := head + suffix;
    assert date == BpDateText(d);
    DayMonthShapeOf(d.day, d.month, suffix);
    assert |suffix| == 5 && |date| == |head| + 5;
    assert date[|date| - 5..] == suffix;
    assert date[|date| - 5..|date| - 2] == suffix[..3] == "/20";
    assert date[|date| - 2..] == suffix[3..] == d.year;
  }

  /** One iteration of extract_bp_transactions' loop: the record the line gives, if any. */
  function BpLine(line: string): (r: Option<Transaction>)
    ensures ContainsAny(line, BpSkipKeywords) ==> r.None?
    ensures DigitRun(Strip(line), 0) < 5 ==> r.None?
    ensures r.Some? ==> BpRecord(r.value)
  {
    if ContainsAny(line, BpSkipKeywords) then None
    else
      var s := Strip(line);
      var date := BpDate(s);
      var amount := SearchFrom(s, 0, BpAmountAt);
      if date.None? || amount.None? then None
      else Some(BpRecordOf(date.value, Strip(Slice(s, date.value.end, amount.value.start)), amount.value.found))
  }

  /**
   * The montant of a Banque Populaire record is minus the integer digits of
   * the first amount match of the stripped line.
   */
  lemma {:induction false} BpAmountIsUnits(line: string)
    requires BpLine(line).Some?
    ensures var a := SearchFrom(Strip(line), 0, BpAmountAt);
            && a.Some? && BpAmountAt(Strip(line), a.value.start) == Some(a.value.found)
            && (forall q :: 0 <= q < a.value.start ==> BpAmountAt(Strip(line), q).None?)
            && BpLine(line).value.montant == WholeDebit(a.value.found)
  {
    BpLineFields(line);
  }

  /**
   * When a line gives a Banque Populaire record, and what the record holds:
   * the line must be free of skip keywords, and the stripped line must start
   * with a date and hold an amount. The date is the matched day and month
   * with the year completed by "20", the label is the stripped text between
   * the date and the first amount match (possibly empty), and the amount
   * comes from that match.
   */
  lemma {:induction false} BpLineFields(line: string)
    ensures var s := Strip(line);
            var d := BpDate(s);
            var a := SearchFrom(s, 0, BpAmountAt);
            && (BpLine(line).Some? <==> !ContainsAny(line, BpSkipKeywords) && d.Some? && a.Some?)
            && (BpLine(line).Some? ==>
                  && d.Some? && a.Some?
                  && BpLine(line).value.date == BpDateText(d.value)
                  && BpLine(line).value.libelle == Strip(Slice(s, d.value.end, a.value.start))
                  && BpLine(line).value.montant == WholeDebit(a.value.found))
  {
  }

  /** extract_bp_transactions: the loop appends each line's record, in order. */
  method ExtractBpTransactions(lines: seq<string>) returns (txs: seq<Transaction>)
    ensures txs == FilterMap(lines, BpLine)
  {
    txs := [];
    for k := 0 to |lines|
      invariant txs == FilterMap(lines[..k], BpLine)
    {
      var line := lines[k];
      FilterMapSnoc(lines, k, BpLine);
      if ContainsAny(line, BpSkipKeywords) {
        assert BpLine(line).None?;
        continue;
      }
      var s := Strip(line);
      var dateMatch := BpDate(s);
      var amountMatch := SearchFrom(s, 0, BpAmountAt);
      if dateMatch.Some? && amountMatch.Some? {
        var middle := Strip(Slice(s, dateMatch.value.end, amountMatch.value.start));
        assert BpLine(line) == Some(BpRecordOf(dateMatch.value, middle, amountMatch.value.found));
        txs := txs + [BpRecordOf(dateMatch.value, middle, amountMatch.value.found)];
      } else {
        assert BpLine(line).None?;
      }
    }
    assert lines[..|lines|] == lines;
  }

  /** Every Banque Populaire record is well formed. */
  lemma {:induction false} BpRecordsWellFormed(lines: seq<string>, k: nat)
    requires k < |FilterMap(lines, BpLine)|
    ensures BpRecord(FilterMap(lines, BpLine)[k])
  {
    FilterMapOrigin(lines, BpLine, k);
  }

  /** A line holding a skip keyword contributes nothing, wherever it stands. */
  lemma {:induction false} BpSkipLineIgnored(before: seq<string>, line: string, after: seq<string>)
    requires ContainsAny(line, BpSkipKeywords)
    ensures FilterMap(before + [line] + after, BpLine) == FilterMap(before, BpLine) + FilterMap(after, BpLine)
  {
    DroppedElement(before, line, after, BpLine);
  }
}

=== FILE: scan_detection.dfy ===
/**
 * ocr_utils.py: the rule is_scanned_pdf applies to decide whether a PDF is
 * a scan (to be read by OCR) or carries its own text, and how
 * extract_text_smart acts on that decision. Opening the PDF and reading its
 * pages (pdfplumber), and the OCR itself, are not modelled: what they give
 * is an input.
 */
module ScanDetection {
  import opened Wrappers
  import opened Text

  /**
   * What reading the PDF gives: the text of each page (None where
   * extract_text() finds none), or Unreadable when opening or reading it
   * raises.
   */
  datatype PdfProbe = Unreadable | Pages(texts: seq<Option<string>>)

  const AnalysedPages: nat := 3
  const MinTextLength: nat := 200
  const MinWords: nat := 50
  const MinBankWords: nat := 2

  const CommonBankWords: seq<string> := [
    "BANQUE", "CREDIT", "COMPTE", "RELEVE", "TRANSACTION",
    "DEBIT", "CARTE", "PAIEMENT", "MONTANT", "DATE", "LCL"
  ]

  // -------------------------------------------------------- the page text

  /** page.extract_text() or "". */
  function PageText(page: Option<string>): string {
    if page.Some? then page.value else ""
  }

  /** The page texts joined without separator. */
  function JoinedText(pages: seq<Option<string>>): (text: string)
    ensures pages == [] ==> text == []
  {
    if pages == [] then [] else JoinedText(pages[..|pages| - 1]) + PageText(pages[|pages| - 1])
  }

  /** The text the rule looks at: the first three pages, joined. */
  function AnalysedText(pages: seq<Option<string>>): string {
    JoinedText(pages[..Min(AnalysedPages, |pages|)])
  }

  // ------------------------------------------------------------- words

  /** Python's `\w` on Latin-1: letters, digits (², ³, ¹ and the fractions included) and '_'. */
  predicate IsWordChar(c: char) {
    || 'a' <= c <= 'z' || 'A' <= c <= 'Z' || '0' <= c <= '9' || c == '_'
    || c == '\U{AA}' || c == '\U{B2}' || c == '\U{B3}' || c == '\U{B5}' || c == '\U{B9}' || c == '\U{BA}'
    || '\U{BC}' <= c <= '\U{BE}'
    || ('\U{C0}' <= c <= '\U{FF}' && c != '\U{D7}' && c != '\U{F7}')
  }

  /** The class [a-zA-ZÀ-ÿ]; it holds × and ÷, which are not word characters. */
  predicate IsWordLetter(c: char) {
    'a' <= c <= 'z' || 'A' <= c <= 'Z' || '\U{C0}' <= c <= '\U{FF}'
  }

  /** Whether index k holds a word character (outside the string there is none). */
  predicate WordCharAt(s: string, k: int) {
    0 <= k < |s| && IsWordChar(s[k])
  }

  /** `\b` at index i: a word character on exactly one side. */
  predicate Boundary(s: string, i: nat) {
    WordCharAt(s, i - 1) != WordCharAt(s, i)
  }

  /** The length of the run of [a-zA-ZÀ-ÿ] starting at p. */
  function LetterRun(s: string, p: nat): (n: nat)
    ensures p + n <= |s| || n == 0
    ensures forall k :: p <= k < p + n ==> IsWordLetter(s[k])
    ensures p + n >= |s| || !IsWordLetter(s[p + n])
    decreases |s| - p
  {
    if p < |s| && IsWordLetter(s[p]) then 1 + LetterRun(s, p + 1) else 0
  }

  /** The greedy `{3,}` backing off from j: the longest end in [i+3, j] with `\b` there. */
  function LongestWordEnd(s: string, i: nat, j: nat): (e: Option<nat>)
    ensures e.Some? ==> i + 3 <= e.value <= j && Boundary(s, e.value)
    ensures e.None? ==> forall k :: i + 3 <= k <= j ==> !Boundary(s, k)
    decreases j
  {
    if j < i + 3 then None
    else if Boundary(s, j) then Some(j)
    else LongestWordEnd(s, i, j - 1)
  }

  /** `\b[a-zA-ZÀ-ÿ]{3,}\b` tried at index i: where the match ends, if it matches. */
  function WordAt(s: string, i: nat): (e: Option<nat>)
    ensures e.Some? ==> i + 3 <= e.value <= |s|
    ensures e.Some? ==> Boundary(s, i) && Boundary(s, e.value)
    ensures e.Some? ==> forall k :: i <= k < e.value ==> IsWordLetter(s[k])
  {
    if !Boundary(s, i) then None
    else
      var n := LetterRun(s, i);
      if n < 3 then None else LongestWordEnd(s, i, i + n)
  }

  /** len(re.findall(...)) on s[p..]: matches are taken left to right without overlap. */
  function WordCount(s: string, p: nat := 0): (n: nat)
    decreases |s| - p
  {
    if p >= |s| then 0
    else match WordAt(s, p)
      case Some(e) => 1 + WordCount(s, e)
      case None => WordCount(s, p + 1)
  }

  /** Every word found has at least three letters, so a text has at most a third of its length in words. */
  lemma {:induction false} WordCountBound(s: string, p: nat)
    requires p <= |s|
    ensures 3 * WordCount(s, p) <= |s| - p
    decreases |s| - p
  {
    if p < |s| {
      match WordAt(s, p)
      case Some(e) => WordCountBound(s, e);
      case None => WordCountBound(s, p + 1);
    }
  }

  // ---------------------------------------------------------- bank words

  /** sum(1 for word in words if word in text). */
  function PresentCount(words: seq<string>, text: string): (n: nat)
    ensures n <= |words|
  {
    if words == [] then 0
    else PresentCount(words[..|words| - 1], text) + (if Contains(text, words[|words| - 1]) then 1 else 0)
  }

  /** Two different listed words occur in the text. */
  predicate TwoPresent(words: seq<string>, text: string) {
    exists a, b :: 0 <= a < b < |words| && Contains(text, words[a]) && Contains(text, words[b])
  }

  /** The count reaches one exactly when some word occurs. */
  lemma {:induction false} PresentCountPositive(words: seq<string>, text: string)
    ensures PresentCount(words, text) >= 1 <==> exists a :: 0 <= a < |words| && Contains(text, words[a])
  {
    if words != [] {
      var init := words[..|words| - 1];
      PresentCountPositive(init, text);
      if exists a :: 0 <= a < |words| && Contains(text, words[a]) {
        var a :| 0 <= a < |words| && Contains(text, words[a]);
        if a < |init| {
          assert init[a] == words[a];
        }
      }
      if exists a :: 0 <= a < |init| && Contains(text, init[a]) {
        var a :| 0 <= a < |init| && Contains(text, init[a]);
        assert words[a] == init[a];
      }
    }
  }

  /** The count reaches two exactly when two different words occur. */
  lemma {:induction false} PresentCountTwo(words: seq<string>, text: string)
    ensures PresentCount(words, text) >= 2 <==> TwoPresent(words, text)
  {
    if words != [] {
      var init := words[..|words| - 1];
      var last := |words| - 1;
      PresentCountTwo(init, text);
      PresentCountPositive(init, text);
      if TwoPresent(words, text) {
        var a, b :| 0 <= a < b < |words| && Contains(text, words[a]) && Contains(text, words[b]);
        assert init[a] == words[a];
        if b < last {
          assert init[b] == words[b];
          assert TwoPresent(init, text);
        }
      }
      if PresentCount(words, text) >= 2 {
        if TwoPresent(init, text) {
          var a, b :| 0 <= a < b < |init| && Contains(text, init[a]) && Contains(text, init[b]);
          assert words[a] == init[a] && words[b] == init[b];
        } else {
          var a :| 0 <= a < |init| && Contains(text, init[a]);
          assert words[a] == init[a];
          assert Contains(text, words[last]);
        }
      }
    }
  }

  // ------------------------------------------------------------ the rule

  /** The rule applied to the analysed text: too short, too few words, or fewer than two bank words means scanned. */
  predicate ScannedText(total: string) {
    || |Strip(total)| < MinTextLength
    || WordCount(total) < MinWords
    || PresentCount(CommonBankWords, Upper(total)) < MinBankWords
  }

  /** is_scanned_pdf: an unreadable PDF counts as native, one without pages as scanned. */
  predicate Scanned(probe: PdfProbe) {
    match probe
    case Unreadable => false
    case Pages(pages) => pages == [] || ScannedText(AnalysedText(pages))
  }

  /**
   * is_scanned_pdf, with its loop over the first three pages. The checks
   * run in the source's order: page count, text length, word count, bank
   * words.
   */
  method IsScannedPdf(probe: PdfProbe) returns (scanned: bool)
    ensures scanned == Scanned(probe)
  {
    if probe.Unreadable? {
      return false;
    }
    var pages := probe.texts;
    if |pages| == 0 {
      return true;
    }
    var totalText := "";
    var limit := Min(AnalysedPages, |pages|);
    for k := 0 to limit
      invariant totalText == JoinedText(pages[..k])
    {
      assert pages[..k + 1][..k] == pages[..k];
      totalText := totalText + PageText(pages[k]);
    }
    assert pages[..limit][..limit] == pages[..limit];
    if |Strip(totalText)| < MinTextLength {
      return true;
    }
    if WordCount(totalText) < MinWords {
      return true;
    }
    var bankWordsFound := PresentCount(CommonBankWords, Upper(totalText));
    if bankWordsFound >= MinBankWords {
      return false;
    }
    return true;
  }

  /** A PDF is taken as native exactly when it is unreadable or passes all three thresholds. */
  lemma {:induction false} NativeMeans(probe: PdfProbe)
    ensures !Scanned(probe) <==>
              || probe.Unreadable?
              || (&& probe.texts != []
                  && var total := AnalysedText(probe.texts);
                  && |Strip(total)| >= MinTextLength
                  && WordCount(total) >= MinWords
                  && TwoPresent(CommonBankWords, Upper(total)))
  {
    if probe.Pages? && probe.texts != [] {
      PresentCountTwo(CommonBankWords, Upper(AnalysedText(probe.texts)));
    }
  }

  /** Pages after the third never affect the decision. */
  lemma {:induction false} OnlyFirstPagesMatter(a: seq<Option<string>>, b: seq<Option<string>>)
    requires |a| >= AnalysedPages && |b| >= AnalysedPages && a[..AnalysedPages] == b[..AnalysedPages]
    ensures Scanned(Pages(a)) == Scanned(Pages(b))
  {
  }

  /**
   * extract_text_smart: OCR when the PDF is judged scanned, direct
   * extraction otherwise, and the decision reported alongside the text. A
   * failure of either extraction propagates; an unreadable PDF is judged
   * native, so its direct extraction is the one that fails.
   */
  method ExtractTextSmart(probe: PdfProbe, ocrText: Result<string, string>, nativeText: Result<string, string>)
    returns (r: Result<(string, bool), string>)
    ensures r.Ok? ==> r.value.1 == Scanned(probe)
    ensures Scanned(probe) ==> r == if ocrText.Ok? then Ok((ocrText.value, true)) else Err(ocrText.error)
    ensures !Scanned(probe) ==> r == if nativeText.Ok? then Ok((nativeText.value, false)) else Err(nativeText.error)
    ensures probe.Unreadable? ==> r == if nativeText.Ok? then Ok((nativeText.value, false)) else Err(nativeText.error)
  {
    var scanned := IsScannedPdf(probe);
    if scanned {
      if ocrText.Err? {
        return Err(ocrText.error);
      }
      return Ok((ocrText.value, true));
    }
    if nativeText.Err? {
      return Err(nativeText.error);
    }
    return Ok((nativeText.value, false));
  }
}

=== FILE: text.dfy ===
/** Option and Result, the failure-carrying values every module returns. */
module Wrappers {
  datatype Option<T> = None | Some(value: T)

  datatype Result<T, E> = Ok(value: T) | Err(error: E)
}

/**
 * The Python string primitives the statement parsers and the backend lean on:
 * str.isspace, str.strip, str.upper, str.lower, `in`, slicing, str.split,
 * str.replace, int() and str() on decimal digits, and the leftmost-match
 * search of re.search.
 */
module Text {
  import opened Wrappers

  /** str.isspace(), which is also what `\s` matches in a str pattern. */
  predicate IsSpace(c: char) {
    || c == ' ' || '\t' <= c <= '\r' || '\U{1C}' <= c <= '\U{1F}'
    || c == '\U{85}' || c == '\U{A0}' || c == '\U{1680}'
    || '\U{2000}' <= c <= '\U{200A}' || c == '\U{2028}' || c == '\U{2029}'
    || c == '\U{202F}' || c == '\U{205F}' || c == '\U{3000}'
  }

  /** `\d`, restricted to the ASCII digits. */
  predicate IsDigit(c: char) {
    '0' <= c <= '9'
  }

  predicate AllDigits(s: string) {
    forall i :: 0 <= i < |s| ==> IsDigit(s[i])
  }

  predicate NoSpace(s: string) {
    forall i :: 0 <= i < |s| ==> !IsSpace(s[i])
  }

  predicate AllSpace(s: string) {
    forall i :: 0 <= i < |s| ==> IsSpace(s[i])
  }

  /** A string that str.strip() leaves as it is. */
  predicate Stripped(s: string) {
    s == [] || (!IsSpace(s[0]) && !IsSpace(s[|s| - 1]))
  }

  function TrimStart(s: string): (r: string)
    ensures |r| <= |s| && r == s[|s| - |r|..]
    ensures r == [] || !IsSpace(r[0])
    ensures forall i :: 0 <= i < |s| - |r| ==> IsSpace(s[i])
  {
    if |s| > 0 && IsSpace(s[0]) then TrimStart(s[1..]) else s
  }

  function TrimEnd(s: string): (r: string)
    ensures |r| <= |s| && r == s[..|r|]
    ensures r == [] || !IsSpace(r[|r| - 1])
    ensures forall i :: |r| <= i < |s| ==> IsSpace(s[i])
  {
    if |s| > 0 && IsSpace(s[|s| - 1]) then TrimEnd(s[..|s| - 1]) else s
  }

  /** str.strip(): drops the whitespace at both ends and nothing else. */
  function Strip(s: string): (r: string)
    ensures |r| <= |s|
    ensures Stripped(r)
    ensures r == [] <==> AllSpace(s)
  {
    var t := TrimStart(s);
    assert t == [] ==> AllSpace(s) by {
      if t == [] {
        forall i | 0 <= i < |s| ensures IsSpace(s[i]) { }
      }
    }
    assert t != [] ==> TrimEnd(t) != [] && !AllSpace(s) by {
      if t != [] {
        assert s[|s| - |t|] == t[0];
      }
    }
    TrimEnd(t)
  }

  lemma {:induction false} StrippedIsFixed(s: string)
    requires Stripped(s)
    ensures Strip(s) == s
  {
  }

  /** str.upper() on one character: ASCII and Latin-1 letters. */
  function UpperChar(c: char): char {
    if 'a' <= c <= 'z' || ('\U{E0}' <= c <= '\U{FE}' && c != '\U{F7}') then (c as int - 32) as char
    else if c == '\U{FF}' then '\U{178}'
    else if c == '\U{B5}' then '\U{39C}'
    else c
  }

  /** str.lower() on one character: ASCII and Latin-1 letters. */
  function LowerChar(c: char): char {
    if 'A' <= c <= 'Z' || ('\U{C0}' <= c <= '\U{DE}' && c != '\U{D7}') then (c as int + 32) as char
    else c
  }

  function Upper(s: string): (r: string)
    ensures |r| == |s| && forall i :: 0 <= i < |s| ==> r[i] == UpperChar(s[i])
  {
    seq(|s|, i requires 0 <= i < |s| => UpperChar(s[i]))
  }

  function Lower(s: string): (r: string)
    ensures |r| == |s| && forall i :: 0 <= i < |s| ==> r[i] == LowerChar(s[i])
  {
    seq(|s|, i requires 0 <= i < |s| => LowerChar(s[i]))
  }

  /** `sub` occurs in `s` starting at index i. */
  predicate OccursAt(s: string, sub: string, i: nat) {
    i + |sub| <= |s| && s[i..i + |sub|] == sub
  }

  /** Python's `sub in s`. */
  predicate Contains(s: string, sub: string) {
    exists i: nat | i <= |s| :: OccursAt(s, sub, i)
  }

  /** Python's `any(k in s for k in keys)`. */
  predicate ContainsAny(s: string, keys: seq<string>) {
    exists k :: 0 <= k < |keys| && Contains(s, keys[k])
  }

  /** `any(k in s for k in [a])`, spelled out. */
  lemma {:induction false} ContainsAnyOne(s: string, a: string)
    ensures ContainsAny(s, [a]) <==> Contains(s, a)
  {
    if Contains(s, a) {
      assert Contains(s, [a][0]);
    }
  }

  /** `any(k in s for k in [a, b])`, spelled out. */
  lemma {:induction false} ContainsAnyTwo(s: string, a: string, b: string)
    ensures ContainsAny(s, [a, b]) <==> Contains(s, a) || Contains(s, b)
  {
    if ContainsAny(s, [a, b]) {
      var k :| 0 <= k < 2 && Contains(s, [a, b][k]);
      assert k == 0 || k == 1;
    }
    if Contains(s, a) {
      assert Contains(s, [a, b][0]);
    }
    if Contains(s, b) {
      assert Contains(s, [a, b][1]);
    }
  }

  function Min(a: nat, b: nat): nat {
    if a <= b then a else b
  }

  /** s[a:b] for non-negative bounds: empty when b <= a, clipped to |s|. */
  function Slice<T>(s: seq<T>, a: nat, b: nat): (r: seq<T>)
    ensures |r| <= |s|
    ensures a < b && a < |s| ==> r == s[a..Min(b, |s|)]
    ensures b <= a || |s| <= a ==> r == []
  {
    if a >= b || a >= |s| then [] else s[a..Min(b, |s|)]
  }

  /** s[:n]. */
  function Take(s: string, n: nat): (r: string)
    ensures |r| == Min(n, |s|) && r == s[..|r|]
  {
    if n <= |s| then s[..n] else s
  }

  /** The length of the run of digits that starts at index p. */
  function DigitRun(s: string, p: nat): (n: nat)
    ensures p + n <= |s| || n == 0
    ensures forall i :: p <= i < p + n ==> IsDigit(s[i])
    ensures p + n >= |s| || !IsDigit(s[p + n])
    decreases |s| - p
  {
    if p < |s| && IsDigit(s[p]) then 1 + DigitRun(s, p + 1) else 0
  }

  /** The length of the run of whitespace that starts at index p. */
  function SpaceRun(s: string, p: nat): (n: nat)
    ensures p + n <= |s| || n == 0
    ensures p + n >= |s| || !IsSpace(s[p + n])
    decreases |s| - p
  {
    if p < |s| && IsSpace(s[p]) then 1 + SpaceRun(s, p + 1) else 0
  }

  function DigitValue(c: char): nat
    requires IsDigit(c)
  {
    c as int - '0' as int
  }

  /** int() of a string of ASCII digits. */
  function DigitsValue(s: string): (n: nat)
    requires AllDigits(s)
  {
    if s == [] then 0 else 10 * DigitsValue(s[..|s| - 1]) + DigitValue(s[|s| - 1])
  }

  function DigitChar(d: nat): (c: char)
    requires d < 10
    ensures IsDigit(c) && DigitValue(c) == d
  {
    ('0' as int + d) as char
  }

  /** str() of a natural number: its decimal digits without leading zeros. */
  function NatToString(n: nat): (s: string)
    ensures |s| >= 1 && AllDigits(s) && DigitsValue(s) == n
    ensures |s| > 1 ==> s[0] != '0'
  {
    if n < 10 then [DigitChar(n)]
    else
      var prefix := NatToString(n / 10);
      var s := prefix + [DigitChar(n % 10)];
      assert s[..|s| - 1] == prefix;
      s
  }

  /** str() of an integer. */
  function IntToString(i: int): string {
    if i < 0 then "-" + NatToString(-i) else NatToString(i)
  }

  /** str.split(sep) for a one-character separator. */
  function SplitOn(s: string, sep: char): (parts: seq<string>)
    ensures |parts| >= 1
    ensures forall k :: 0 <= k < |parts| ==> sep !in parts[k]
  {
    if s == [] then [[]]
    else
      var rest := SplitOn(s[1..], sep);
      if s[0] == sep then [[]] + rest else [[s[0]] + rest[0]] + rest[1..]
  }

  /** sep.join(parts), the inverse of SplitOn. */
  function JoinWith(parts: seq<string>, sep: char): string {
    if |parts| == 0 then []
    else if |parts| == 1 then parts[0]
    else parts[0] + [sep] + JoinWith(parts[1..], sep)
  }

  /** Splitting on a character and joining back with it gives the input again. */
  lemma {:induction false} SplitOnRoundTrip(s: string, sep: char)
    ensures JoinWith(SplitOn(s, sep), sep) == s
  {
    if s != [] {
      var rest := SplitOn(s[1..], sep);
      SplitOnRoundTrip(s[1..], sep);
      if s[0] == sep {
        assert SplitOn(s, sep) == [[]] + rest;
        assert ([[]] + rest)[1..] == rest;
      } else {
        var parts := [[s[0]] + rest[0]] + rest[1..];
        if |rest| == 1 {
          assert JoinWith(parts, sep) == [s[0]] + rest[0];
        } else {
          assert parts[1..] == rest[1..];
          assert JoinWith(rest, sep) == rest[0] + [sep] + JoinWith(rest[1..], sep);
        }
      }
    }
  }

  /** The length of the run of non-whitespace that starts at index p. */
  function WordRun(s: string, p: nat): (n: nat)
    ensures p + n <= |s| || n == 0
    decreases |s| - p
  {
    if p < |s| && !IsSpace(s[p]) then 1 + WordRun(s, p + 1) else 0
  }

  /** The run holds no whitespace and ends at whitespace or at the end of s. */
  lemma {:induction false} WordRunNoSpace(s: string, p: nat)
    ensures forall i :: p <= i < p + WordRun(s, p) ==> !IsSpace(s[i])
    ensures p + WordRun(s, p) >= |s| || IsSpace(s[p + WordRun(s, p)])
    decreases |s| - p
  {
    if p < |s| && !IsSpace(s[p]) {
      WordRunNoSpace(s, p + 1);
    }
  }

  /** str.split() with no argument on s[p..]: the maximal runs of non-whitespace, in order. */
  function SplitWhitespace(s: string, p: nat := 0): (parts: seq<string>)
    ensures forall k :: 0 <= k < |parts| ==> parts[k] != [] && NoSpace(parts[k])
    decreases |s| - p
  {
    var q := p + SpaceRun(s, p);
    if q >= |s| then []
    else
      var n := WordRun(s, q);
      var w := s[q..q + n];
      WordRunNoSpace(s, q);
      assert w != [] && NoSpace(w);
      [w] + SplitWhitespace(s, q + n)
  }

  /**
   * str.replace(pat, rep): every non-overlapping occurrence of pat, found
   * left to right, is replaced by rep.
   */
  function ReplaceAll(s: string, pat: string, rep: string): string
    requires |pat| > 0
    decreases |s|
  {
    if |s| < |pat| then s
    else if s[..|pat|] == pat then rep + ReplaceAll(s[|pat|..], pat, rep)
    else [s[0]] + ReplaceAll(s[1..], pat, rep)
  }

  /** A string without the pattern is left alone by ReplaceAll. */
  lemma {:induction false} ReplaceAllAbsent(s: string, pat: string, rep: string)
    requires |pat| > 0 && !Contains(s, pat)
    ensures ReplaceAll(s, pat, rep) == s
  {
    if |s| >= |pat| {
      assert !OccursAt(s, pat, 0);
      assert !Contains(s[1..], pat) by {
        forall i: nat | OccursAt(s[1..], pat, i) ensures false {
          assert s[1..][i..i + |pat|] == s[i + 1..i + 1 + |pat|];
          assert OccursAt(s, pat, i + 1);
        }
      }
      ReplaceAllAbsent(s[1..], pat, rep);
    }
  }

  /** Replacing a one-character pattern by one character maps the string character by character. */
  lemma {:induction false} ReplaceCharPointwise(s: string, c: char, d: char)
    ensures |ReplaceAll(s, [c], [d])| == |s|
    ensures forall i :: 0 <= i < |s| ==> ReplaceAll(s, [c], [d])[i] == if s[i] == c then d else s[i]
  {
    if |s| >= 1 {
      ReplaceCharPointwise(s[1..], c, d);
      var head := if s[..1] == [c] then [d] else [s[0]];
      assert ReplaceAll(s, [c], [d]) == head + ReplaceAll(s[1..], [c], [d]);
    }
  }

  /** A match of a pattern: where it starts, and what the pattern found there. */
  datatype Hit<M> = Hit(start: nat, found: M)

  /**
   * re.search: the leftmost position at or after p where the pattern, tried by
   * `at` (which gives what the pattern matches there, if anything), matches.
   */
  function SearchFrom<M>(s: string, p: nat, at: (string, nat) -> Option<M>): (r: Option<Hit<M>>)
    ensures r.Some? ==> p <= r.value.start <= |s| && at(s, r.value.start) == Some(r.value.found)
    ensures r.Some? ==> forall q :: p <= q < r.value.start ==> at(s, q).None?
    ensures r.None? ==> forall q :: p <= q <= |s| ==> at(s, q).None?
    decreases |s| + 1 - p
  {
    if p > |s| then None
    else match at(s, p)
      case Some(m) => Some(Hit(p, m))
      case None => SearchFrom(s, p + 1, at)
  }
}

=== FILE: transactions.dfy ===
/**
 * The record every statement parser produces ({Date, Libellé, Montant}) and
 * the order-preserving filter-and-map that the parsers' loops perform.
 */
module Transactions {
  import opened Wrappers

  /**
   * One extracted row. Montants are exact reals: the float rounding of the
   * original is not modelled.
   */
  datatype Transaction = Transaction(date: string, libelle: string, montant: real)

  /** A real with no fractional part. */
  predicate Integral(x: real) {
    x.Floor as real == x
  }

  /** [f(x) for x in xs if f(x) is not None], in input order. */
  function FilterMap<T, U>(xs: seq<T>, f: T -> Option<U>): (r: seq<U>)
    ensures |r| <= |xs|
  {
    if xs == [] then [] else Image(f(xs[0])) + FilterMap(xs[1..], f)
  }

  /** The zero or one output elements that one input element gives. */
  function Image<U>(o: Option<U>): (r: seq<U>)
    ensures |r| <= 1
  {
    if o.Some? then [o.value] else []
  }

  lemma {:induction false} ConcatAssoc<U>(a: seq<U>, b: seq<U>, c: seq<U>)
    ensures (a + b) + c == a + (b + c)
  {
  }

  /** Filtering distributes over concatenation, so the output keeps the input order. */
  lemma {:induction false} FilterMapAppend<T, U>(a: seq<T>, b: seq<T>, f: T -> Option<U>)
    ensures FilterMap(a + b, f) == FilterMap(a, f) + FilterMap(b, f)
  {
    if a == [] {
      assert a + b == b;
    } else {
      var ab := a + b;
      assert ab[0] == a[0];
      assert ab[1..] == a[1..] + b;
      FilterMapAppend(a[1..], b, f);
      calc {
        FilterMap(ab, f);
        Image(f(a[0])) + FilterMap(a[1..] + b, f);
        Image(f(a[0])) + (FilterMap(a[1..], f) + FilterMap(b, f));
        (Image(f(a[0])) + FilterMap(a[1..], f)) + FilterMap(b, f);
      }
    }
  }

  /** One more input element adds its image at the end. */
  lemma {:induction false} FilterMapSnoc<T, U>(xs: seq<T>, k: nat, f: T -> Option<U>)
    requires k < |xs|
    ensures FilterMap(xs[..k + 1], f) == FilterMap(xs[..k], f) + Image(f(xs[k]))
  {
    assert xs[..k + 1] == xs[..k] + [xs[k]];
    FilterMapAppend(xs[..k], [xs[k]], f);
    assert [xs[k]][1..] == [];
  }

  /** Every output element is the image of some input element. */
  lemma {:induction false} FilterMapOrigin<T, U>(xs: seq<T>, f: T -> Option<U>, k: nat)
    requires k < |FilterMap(xs, f)|
    ensures exists i :: 0 <= i < |xs| && f(xs[i]) == Some(FilterMap(xs, f)[k])
  {
    if f(xs[0]).Some? {
      if k > 0 {
        FilterMapOrigin(xs[1..], f, k - 1);
        var i :| 0 <= i < |xs| - 1 && f(xs[1..][i]) == Some(FilterMap(xs[1..], f)[k - 1]);
        assert f(xs[i + 1]) == Some(FilterMap(xs, f)[k]);
      } else {
        assert f(xs[0]) == Some(FilterMap(xs, f)[k]);
      }
    } else {
      FilterMapOrigin(xs[1..], f, k);
      var i :| 0 <= i < |xs| - 1 && f(xs[1..][i]) == Some(FilterMap(xs[1..], f)[k]);
      assert f(xs[i + 1]) == Some(FilterMap(xs, f)[k]);
    }
  }

  /** An element whose image is None contributes nothing to the output. */
  lemma {:induction false} DroppedElement<T, U>(a: seq<T>, x: T, b: seq<T>, f: T -> Option<U>)
    requires f(x).None?
    ensures FilterMap(a + [x] + b, f) == FilterMap(a, f) + FilterMap(b, f)
  {
    assert FilterMap([x], f) == [] by {
      assert [x][1..] == [];
      assert FilterMap([x], f) == Image(f(x)) + FilterMap([x][1..], f);
    }
    FilterMapAppend(a, [x], f);
    assert FilterMap(a + [x], f) == FilterMap(a, f);
    FilterMapAppend(a + [x], b, f);
  }

  /** One turn of an index-driven loop: the record it appends, if any, and the index it moves on to. */
  datatype Step<T> = Step(record: Option<T>, next: nat)

  /**
   * The records an index-driven loop appends from index i on, when its turn at
   * index j is steps[j]. A turn that does not move forward ends the run (the
   * loops modelled here always move forward).
   */
  function RunSteps<T>(steps: seq<Step<T>>, i: nat): (r: seq<T>)
    ensures |r| <= |steps| - i || i > |steps|
    decreases |steps| - i
  {
    if i >= |steps| || steps[i].next <= i then []
    else Image(steps[i].record) + RunSteps(steps, steps[i].next)
  }

  /** Every record of a run is the record of one of its turns. */
  lemma {:induction false} RunStepsOrigin<T>(steps: seq<Step<T>>, i: nat, k: nat)
    requires k < |RunSteps(steps, i)|
    ensures exists j :: i <= j < |steps| && steps[j].record == Some(RunSteps(steps, i)[k])
    decreases |steps| - i
  {
    var st := steps[i];
    if st.record.Some? && k == 0 {
      assert steps[i].record == Some(RunSteps(steps, i)[k]);
    } else {
      var k' := if st.record.Some? then k - 1 else k;
      RunStepsOrigin(steps, st.next, k');
      var j :| st.next <= j < |steps| && steps[j].record == Some(RunSteps(steps, st.next)[k']);
      assert RunSteps(steps, i)[k] == RunSteps(steps, st.next)[k'];
    }
  }
}
